=== FILE: README.md ===
# Hadoop runnable task and external split, modelled in Dafny

This project models two classes of the Hadoop accelerator's task executor.

The first is `GridHadoopRunnableTask`, the unit of work the executor runs. One `call()`:
- decides whether a MAP task is followed by a local combine;
- prepares the task environment;
- runs the task through `runTask`, and then, if the combine decision holds, runs a synthetic COMBINE task. That task reads the local aggregation store the MAP task filled;
- classifies the outcome as COMPLETED, CANCELED or FAILED with a cause;
- stamps the start time on entry; cleans the environment up, stamps the end time, reports through `onTaskFinished`, and releases the local store.

Inside `runTask`:
- the cancel flag is checked twice: on entry, and after the task body is created;
- the task's output and input channels come from two decision tables over the task type and the combine flag;
- the channels are released by try-with-resources on every exit.

`cancel()` sets the flag and forwards the request to the current task body. `waitTime()` and `executionTime()` are differences of timestamps taken in `long` arithmetic.

The second is `GridHadoopExternalSplit`, an input split located by an offset in a shared file. It serialises only that offset, as one big-endian 8-byte long. Its `equals` and `hashCode` look only at the offset.

The collaborators are replaced by a script that says, for each call, whether it returns or throws. These are the job's environment, context, task-creation and cleanup hooks, the executor's abstract channel factories, and the task body. The same script gives the clock's readings.

Concurrency is replaced by a cancel schedule. It names the checkpoint before which `cancel()` takes effect: the entry and the after-creation check, for the primary task and for the combine. The flag it sets is seen by that check and by every later one.

A run is observed as a trace of events:
- `Prepare`, `GetContext`, `NewStore`, `CreateOutput`, `CreateInput`, `CreateTask`, `RunBody`;
- `CloseInput`, `CloseOutput`;
- `StampStart`, `Cleanup`, `StampEnd`, `Finished(state, err)`, `CloseStore`; the two stamps are the assignments of `execStartTs` and `execEndTs`.

The Java `assert`s on the store field become preconditions of the wiring functions. The model of `call()` discharges them, which proves that the store is built before it is read.

Files:
- `optional.dfy`: `Option`, which stands for a nullable reference.
- `java_long.dfy`: Java `long`/`int` arithmetic and the `writeLong`/`readLong` byte layout.
- `hadoop_types.dfy`: task types, descriptors, job flags, throwables, replies and states.
- `task_wiring.dfy`: the combine decision, the two channel tables and the store variant.
- `runnable_task.dfy`: `runTask` and its trace.
- `task_call.dfy`: `call()`, `cancel()` and the timing getters.
- `call_properties.dfy`: properties of whole calls.
- `external_split.dfy`: the split record.

## Model

| member | source | states |
|---|---|---|
| TaskWiring.RunCombiner | modules/hadoop/src/main/java/org/gridgain/grid/kernal/processors/hadoop/taskexecutor/GridHadoopRunnableTask.java:91-92 | The local combine runs exactly for a MAP task whose job has a combiner and does not set SINGLE_COMBINER_FOR_ALL_MAPPERS, the flag defaulting to false; it never runs for other types |
| TaskWiring.OutputFor | modules/hadoop/src/main/java/org/gridgain/grid/kernal/processors/hadoop/taskexecutor/GridHadoopRunnableTask.java:226-248 | SETUP, REDUCE, COMMIT and ABORT get a null output; MAP with the combine flag writes into the store; MAP without it and COMBINE fall through to the executor's hook, each stated as an if-and-only-if |
| TaskWiring.InputFor | modules/hadoop/src/main/java/org/gridgain/grid/kernal/processors/hadoop/taskexecutor/GridHadoopRunnableTask.java:186-204 | SETUP, MAP, COMMIT and ABORT get a null input; COMBINE with the combine flag reads the store; REDUCE and COMBINE without the flag use the hook, each as an if-and-only-if |
| TaskWiring.StoreFor | modules/hadoop/src/main/java/org/gridgain/grid/kernal/processors/hadoop/taskexecutor/GridHadoopRunnableTask.java:238-240 | The hash multimap is chosen exactly when SHUFFLE_COMBINER_NO_SORTING is set true, with COMBINER_HASHMAP_SIZE as capacity or 8*1024 when unset; otherwise the skip list |
| TaskWiring.WireOutput | modules/hadoop/src/main/java/org/gridgain/grid/kernal/processors/hadoop/taskexecutor/GridHadoopRunnableTask.java:234-242 | Building the store demands an empty store field, fills it with the job's variant, and only then hands out the store's writer; other channels leave the field alone |
| TaskWiring.WireInput | modules/hadoop/src/main/java/org/gridgain/grid/kernal/processors/hadoop/taskexecutor/GridHadoopRunnableTask.java:193-197 | Reading the store demands that the field holds one |
| RunnableTask.RunTask | modules/hadoop/src/main/java/org/gridgain/grid/kernal/processors/hadoop/taskexecutor/GridHadoopRunnableTask.java:142-161 | A flag seen on entry throws the cancellation exception with nothing done and the store field untouched; the call returns exactly when the body ran and returned; the field changes only from empty to the job's store, and a returning MAP run with the combine flag leaves it filled |
| RunnableTask.RunTaskByExit | modules/hadoop/src/main/java/org/gridgain/grid/kernal/processors/hadoop/taskexecutor/GridHadoopRunnableTask.java:142-161 | Each call's steps and releases are those of the statement at which it leaves: entry check, context, output hook, input hook, task creation, second check, or the body |
| RunnableTask.RunTaskOutcomeByExit | modules/hadoop/src/main/java/org/gridgain/grid/kernal/processors/hadoop/taskexecutor/GridHadoopRunnableTask.java:142-161 | The call ends with the cancellation exception at a check and otherwise with the reply of the collaborator it stopped at; the store field changes exactly when the store was built |
| RunnableTask.RunTaskCheckpointB | modules/hadoop/src/main/java/org/gridgain/grid/kernal/processors/hadoop/taskexecutor/GridHadoopRunnableTask.java:154-159 | With the flag seen after creation the body never runs and a created body ends in the cancellation exception; a body runs only right after the full wiring and its creation |
| RunnableTask.RunTaskThrowsOnlyScripted | modules/hadoop/src/main/java/org/gridgain/grid/kernal/processors/hadoop/taskexecutor/GridHadoopRunnableTask.java:142-161 | A call throws only the cancellation exception or an exception a collaborator threw |
| RunnableTask.RunTaskWiring | modules/hadoop/src/main/java/org/gridgain/grid/kernal/processors/hadoop/taskexecutor/GridHadoopRunnableTask.java:146-149 | Channels come from the two tables; the output is obtained right after the context (and the store), the input only after the output |
| RunnableTask.RunTaskStore | modules/hadoop/src/main/java/org/gridgain/grid/kernal/processors/hadoop/taskexecutor/GridHadoopRunnableTask.java:234-240 | A store is built only on the map side of a local combine with no store yet, as the job's variant; the store is read only if it existed before the call |
| RunnableTask.RunTaskReleasesChannels | modules/hadoop/src/main/java/org/gridgain/grid/kernal/processors/hadoop/taskexecutor/GridHadoopRunnableTask.java:148-160 | A channel is released exactly when it was obtained and is not null, at most once each, input before output |
| RunnableTask.RunTaskEventKinds | modules/hadoop/src/main/java/org/gridgain/grid/kernal/processors/hadoop/taskexecutor/GridHadoopRunnableTask.java:142-161 | A call only requests contexts, builds the store, obtains channels, creates and runs bodies for its own descriptor, and then releases channels |
| RunnableTask.ClosesReleases | modules/hadoop/src/main/java/org/gridgain/grid/kernal/processors/hadoop/taskexecutor/GridHadoopRunnableTask.java:148-149 | Try-with-resources releases a resource exactly when it is not null, in reverse order of acquisition |
| TaskCall.TryBlock | modules/hadoop/src/main/java/org/gridgain/grid/kernal/processors/hadoop/taskexecutor/GridHadoopRunnableTask.java:97-105 | A failing preparation runs nothing; the combine runs exactly when the primary returned and the decision holds; the block returns exactly when every task run returned; a store exists only under the decision; once preparation returned, the block ends with the reply of the last task run, which is the combine's when it ran and the primary's otherwise |
| TaskCall.Classify | modules/hadoop/src/main/java/org/gridgain/grid/kernal/processors/hadoop/taskexecutor/GridHadoopRunnableTask.java:94-114 | Return means COMPLETED with no error, the cancellation exception CANCELED with no error, and anything else FAILED with that error |
| TaskCall.CleanupErr | modules/hadoop/src/main/java/org/gridgain/grid/kernal/processors/hadoop/taskexecutor/GridHadoopRunnableTask.java:116-124 | A cleanup failure becomes the reported error only when none was recorded; an earlier error is kept |
| TaskCall.CallAsWritten | modules/hadoop/src/main/java/org/gridgain/grid/kernal/processors/hadoop/taskexecutor/GridHadoopRunnableTask.java:88-135 | The call ends in NullPointerException exactly when the combine decision holds and no store was built; otherwise it releases the store exactly under the decision |
| TaskCall.Call | modules/hadoop/src/main/java/org/gridgain/grid/kernal/processors/hadoop/taskexecutor/GridHadoopRunnableTask.java:88-135 | Corrected `call()` (see Findings): the call returns normally and releases the store exactly when one exists. The state follows the try block's outcome as in the catch clauses. A FAILED call reports the try block's error; otherwise the error is the cleanup's throwable when the cleanup throws, and none when it returns. The timestamps are the construction reading, then the entry stamp, then the end stamp |
| CallProperties.CallReportsOnce | modules/hadoop/src/main/java/org/gridgain/grid/kernal/processors/hadoop/taskexecutor/GridHadoopRunnableTask.java:115-132 | Every call ends with exactly one cleanup followed by exactly one report, after all task work; only the store release may follow |
| CallProperties.Reports | modules/hadoop/src/main/java/org/gridgain/grid/kernal/processors/hadoop/taskexecutor/GridHadoopRunnableTask.java:128 | The number of `onTaskFinished` reports in a trace: zero exactly when the trace holds no report, and never more than the trace's length |
| CallProperties.ReportsAppend | modules/hadoop/src/main/java/org/gridgain/grid/kernal/processors/hadoop/taskexecutor/GridHadoopRunnableTask.java:128 | Reports in consecutive parts of a trace add up, by induction on the first part |
| CallProperties.CallReportsExactlyOnce | modules/hadoop/src/main/java/org/gridgain/grid/kernal/processors/hadoop/taskexecutor/GridHadoopRunnableTask.java:88-132 | Whatever the try block did, a call's trace holds exactly one report |
| CallProperties.CallStampsInOrder | modules/hadoop/src/main/java/org/gridgain/grid/kernal/processors/hadoop/taskexecutor/GridHadoopRunnableTask.java:88-128 | The start is stamped first and only once. The end is stamped once, after the cleanup and right before `onTaskFinished`. Afterwards the object holds the construction, entry and end readings |
| CallProperties.PrepareFailure | modules/hadoop/src/main/java/org/gridgain/grid/kernal/processors/hadoop/taskexecutor/GridHadoopRunnableTask.java:97-128 | A failing preparation gives FAILED with its error whatever the schedule, and the trace is preparation, cleanup, report |
| CallProperties.CancelBeforeStart | modules/hadoop/src/main/java/org/gridgain/grid/kernal/processors/hadoop/taskexecutor/GridHadoopRunnableTask.java:142-144 | A cancel before the first check gives CANCELED after preparation, with no context requested. The error reported is the cleanup's throwable when the cleanup throws, and none otherwise |
| CallProperties.CancelSeenIsCanceled | modules/hadoop/src/main/java/org/gridgain/grid/kernal/processors/hadoop/taskexecutor/GridHadoopRunnableTask.java:97-157 | A cancel that a check sees makes the call CANCELED. This holds for the primary task's entry check, for its check after the task body is created, and for the same two checks of the combine |
| CallProperties.RunFailureIsReported | modules/hadoop/src/main/java/org/gridgain/grid/kernal/processors/hadoop/taskexecutor/GridHadoopRunnableTask.java:97-111 | A primary or combine run that throws anything but the cancellation exception makes the call FAILED, with that throwable as the error |
| CallProperties.CompletedIffBodiesReturned | modules/hadoop/src/main/java/org/gridgain/grid/kernal/processors/hadoop/taskexecutor/GridHadoopRunnableTask.java:97-108 | COMPLETED exactly when the task body ran and returned and, under the decision, so did the combine's body |
| CallProperties.CombineFollowsMap | modules/hadoop/src/main/java/org/gridgain/grid/kernal/processors/hadoop/taskexecutor/GridHadoopRunnableTask.java:100-104 | The synthetic combine starts only under the decision, after its map task's body ran and returned |
| CallProperties.MapCallReadsOnlyStore | modules/hadoop/src/main/java/org/gridgain/grid/kernal/processors/hadoop/taskexecutor/GridHadoopRunnableTask.java:186-197 | The only non-null input of a map task's call is the local store |
| CallProperties.StoreBuiltBeforeRead | modules/hadoop/src/main/java/org/gridgain/grid/kernal/processors/hadoop/taskexecutor/GridHadoopRunnableTask.java:193-240 | The store is read only by the combine run, after the map run built it |
| CallProperties.NonMapRunNoStore | modules/hadoop/src/main/java/org/gridgain/grid/kernal/processors/hadoop/taskexecutor/GridHadoopRunnableTask.java:226-248 | A `runTask` call of a task other than MAP neither builds nor releases the store, and never obtains the store output or the store input |
| CallProperties.NonMapNeverUsesStore | modules/hadoop/src/main/java/org/gridgain/grid/kernal/processors/hadoop/taskexecutor/GridHadoopRunnableTask.java:226-248 | Tasks other than MAP never build, fill, read or release the store |
| CallProperties.NonMapAsWrittenIsSafe | modules/hadoop/src/main/java/org/gridgain/grid/kernal/processors/hadoop/taskexecutor/GridHadoopRunnableTask.java:130-131 | For tasks other than MAP the call as written behaves exactly as the corrected one |
| CallProperties.StoreReleasedIffBuilt | modules/hadoop/src/main/java/org/gridgain/grid/kernal/processors/hadoop/taskexecutor/GridHadoopRunnableTask.java:130-131 | The corrected call releases the store exactly when it was built, once, as its last act |
| CallProperties.AsWrittenRaisesOnMissingStore | modules/hadoop/src/main/java/org/gridgain/grid/kernal/processors/hadoop/taskexecutor/GridHadoopRunnableTask.java:130-131 | As written, the call raises NullPointerException exactly when the decision holds and the store was never built |
| CallProperties.AsWrittenNullPointerWitness | modules/hadoop/src/main/java/org/gridgain/grid/kernal/processors/hadoop/taskexecutor/GridHadoopRunnableTask.java:97-131 | A MAP task with a per-mapper combiner whose preparation fails makes the call as written raise, and the corrected one not |
| CallProperties.CorrectedAgreesWithAsWritten | modules/hadoop/src/main/java/org/gridgain/grid/kernal/processors/hadoop/taskexecutor/GridHadoopRunnableTask.java:88-135 | On every input the call as written and the corrected call make the same try block, state, error, timestamps and trace; where the source does not raise, they are equal |
| CallProperties.AsWrittenReportsBeforeRaising | modules/hadoop/src/main/java/org/gridgain/grid/kernal/processors/hadoop/taskexecutor/GridHadoopRunnableTask.java:115-131 | The call as written reports exactly once, with the classified state and the cleanup-adjusted error, right after the end stamp; when it raises, that report is the last event before the NullPointerException |
| CallProperties.CleanupNeverChangesState | modules/hadoop/src/main/java/org/gridgain/grid/kernal/processors/hadoop/taskexecutor/GridHadoopRunnableTask.java:115-124 | Whatever the cleanup does, the state and the task work are unchanged, and so is a FAILED call's error |
| CallProperties.LateCancelIsAdvisory | modules/hadoop/src/main/java/org/gridgain/grid/kernal/processors/hadoop/taskexecutor/GridHadoopRunnableTask.java:142-161 | Without a combine, a cancel after the primary task's second check changes nothing |
| CallProperties.CancelIsSticky | modules/hadoop/src/main/java/org/gridgain/grid/kernal/processors/hadoop/taskexecutor/GridHadoopRunnableTask.java:166-167 | A flag seen at one check is seen at every later check |
| CallProperties.NoCancelNoCanceledState | modules/hadoop/src/main/java/org/gridgain/grid/kernal/processors/hadoop/taskexecutor/GridHadoopRunnableTask.java:106-108 | Without a cancel request, CANCELED needs a collaborator that itself threw the cancellation exception |
| CallProperties.CancelIdempotent | modules/hadoop/src/main/java/org/gridgain/grid/kernal/processors/hadoop/taskexecutor/GridHadoopRunnableTask.java:166-171 | Cancelling twice has the effect of cancelling once |
| CallProperties.CancelForwards | modules/hadoop/src/main/java/org/gridgain/grid/kernal/processors/hadoop/taskexecutor/GridHadoopRunnableTask.java:166-171 | The request reaches a task body exactly when one exists, and the flag ends set |
| CallProperties.TimesAreDurations | modules/hadoop/src/main/java/org/gridgain/grid/kernal/processors/hadoop/taskexecutor/GridHadoopRunnableTask.java:43-128 | After a call, with a clock that does not go back, the wait time and the execution time are the non-negative durations between the construction, entry and end readings, and they add up to submit-to-end |
| CallProperties.TimesBeforeStamping | modules/hadoop/src/main/java/org/gridgain/grid/kernal/processors/hadoop/taskexecutor/GridHadoopRunnableTask.java:76-85 | Asked before the start, the wait time is minus the submit time; asked during the run, the execution time is minus the start time |
| CallProperties.TimesWrap | modules/hadoop/src/main/java/org/gridgain/grid/kernal/processors/hadoop/taskexecutor/GridHadoopRunnableTask.java:76-85 | For any readings each getter is the exact difference modulo 2^64 |
| JavaLong.LongSub | modules/hadoop/src/main/java/org/gridgain/grid/kernal/processors/hadoop/taskexecutor/GridHadoopRunnableTask.java:76-85 | `long` subtraction is congruent to the exact difference modulo 2^64, and equal to it when it fits |
| JavaLong.IntCast | modules/hadoop/src/main/java/org/gridgain/grid/kernal/processors/hadoop/v2/GridHadoopExternalSplit.java:81 | The `(int)` cast is congruent to its operand modulo 2^32 and keeps values that fit |
| JavaLong.LongRoundTrip | modules/hadoop/src/main/java/org/gridgain/grid/kernal/processors/hadoop/v2/GridHadoopExternalSplit.java:57-64 | `readLong` recovers every long `writeLong` wrote |
| JavaLong.BytesRoundTrip | modules/hadoop/src/main/java/org/gridgain/grid/kernal/processors/hadoop/v2/GridHadoopExternalSplit.java:57-64 | `writeLong` reproduces any eight bytes `readLong` read |
| JavaLong.SignInFirstByte | modules/hadoop/src/main/java/org/gridgain/grid/kernal/processors/hadoop/v2/GridHadoopExternalSplit.java:58 | Big-endian layout: the first byte is below 0x80 exactly for non-negative values |
| ExternalSplit.NewSplit | modules/hadoop/src/main/java/org/gridgain/grid/kernal/processors/hadoop/v2/GridHadoopExternalSplit.java:41-54 | Construction demands a non-negative offset and non-null hosts; `offset()` then returns the given offset |
| ExternalSplit.ConstructedOffsetNonNegative | modules/hadoop/src/main/java/org/gridgain/grid/kernal/processors/hadoop/v2/GridHadoopExternalSplit.java:41-59 | A constructed split serialises with the sign bit clear |
| ExternalSplit.WriteExternal | modules/hadoop/src/main/java/org/gridgain/grid/kernal/processors/hadoop/v2/GridHadoopExternalSplit.java:57-59 | Serialising writes exactly eight bytes, from which `readLong` recovers the offset |
| ExternalSplit.HostsNotWritten | modules/hadoop/src/main/java/org/gridgain/grid/kernal/processors/hadoop/v2/GridHadoopExternalSplit.java:57-59 | Two splits serialise alike exactly when their offsets agree; hosts play no part |
| ExternalSplit.ReadExternal | modules/hadoop/src/main/java/org/gridgain/grid/kernal/processors/hadoop/v2/GridHadoopExternalSplit.java:62-64 | Reading fails exactly on fewer than eight bytes; otherwise it consumes eight, keeps the hosts and takes the offset whose serialised form they are |
| ExternalSplit.RoundTrip | modules/hadoop/src/main/java/org/gridgain/grid/kernal/processors/hadoop/v2/GridHadoopExternalSplit.java:57-77 | Reading a serialised split into a blank object restores its offset, leaves the rest of the stream, and the copy equals the original both ways |
| ExternalSplit.Equals | modules/hadoop/src/main/java/org/gridgain/grid/kernal/processors/hadoop/v2/GridHadoopExternalSplit.java:67-77 | False for null and for other classes; for splits, true exactly when the offsets agree |
| ExternalSplit.EqualsIsEquivalence | modules/hadoop/src/main/java/org/gridgain/grid/kernal/processors/hadoop/v2/GridHadoopExternalSplit.java:67-77 | `equals` is reflexive, symmetric and transitive on splits |
| ExternalSplit.HashConsistentWithEquals | modules/hadoop/src/main/java/org/gridgain/grid/kernal/processors/hadoop/v2/GridHadoopExternalSplit.java:67-82 | Equal splits have equal hash codes |
| ExternalSplit.SmallOffsetHash | modules/hadoop/src/main/java/org/gridgain/grid/kernal/processors/hadoop/v2/GridHadoopExternalSplit.java:80-82 | For an offset below 2^32 the hash is the offset cast to `int` |

## Left out

- `readSplitClass` of the split: it seeks in a file system stream, decodes Hadoop text and loads a class through the job configuration. That is I/O and a foreign API.
- The hash multimap, the skip list and off-heap memory are not part of this model. The store is a handle with a kind that is built, written, read and released. `startAdding`, `input` and `close` of the store are assumed not to throw. So are the store constructors `new GridHadoopHashMultimap(job, mem, …)` and `new GridHadoopSkipList(job, mem, ctx.sortComparator())`, which allocate off-heap memory. So are the comparator getters `ctx.sortComparator()` and `ctx.combineGroupComparator()`.
- The try-with-resources releases of the channels are assumed not to throw, and neither is `onTaskFinished`.
- The bodies of the executor's abstract channel factories, of the job's hooks and of the task body are scripted replies. So is the work `task.run` does. Of `task.cancel()`, only that it is invoked is modelled.
- The two channel switches read the type of `ctx.taskInfo()`. The model reads the type of the descriptor passed to `runTask`, so it assumes `job.getTaskContext(info)` returns a context for that same descriptor.
- `ctx.input(in)` and `ctx.output(out)` only attach the channels to the context, so they are not events.
- Threads and `volatile` visibility are not modelled. `cancel()` takes effect before one of the four checks, chosen by the schedule.
- The current-task field that `cancel()` reads is a parameter of `Cancel`. The model does not derive it from the run.
- `System.currentTimeMillis` is replaced by the three readings in the script's `Clock`: at construction, on entry to `call()` and after the cleanup. Logging through `U.error` is dropped.
- A runnable task object serves one `call()`, so its store field is null on entry.
- `Split.hosts` is `None` only for the blank object that deserialisation fills. The asserts of the constructor are preconditions.
- Some members carry no contract beyond their definition. Their properties are lemmas:
  - `TaskCall.WaitTime` and `TaskCall.ExecutionTime`: `TimesAreDurations`, `TimesBeforeStamping` and `TimesWrap`;
  - `ExternalSplit.HashCode`: `HashConsistentWithEquals` and `SmallOffsetHash`;
  - `TaskCall.Cancel`: `CancelIdempotent` and `CancelForwards`;
  - `TaskCall.CombineInfo`: `CombineFollowsMap`.

A cancel request before the first check yields CANCELED only when `prepareTaskEnvironment` returns; a failing preparation is reported as FAILED whatever the schedule (`PrepareFailure`).

## Findings

| source | as written | input that shows it | evidently intended | confidence | as-written member | corrected member |
|---|---|---|---|---|---|---|
| modules/hadoop/src/main/java/org/gridgain/grid/kernal/processors/hadoop/taskexecutor/GridHadoopRunnableTask.java:130-131 | The finally block calls `local.close()` whenever the combine decision holds, but the store field is only set when the MAP task's output is wired. | A MAP task whose job has a combiner (the single-combiner flag unset) and whose `prepareTaskEnvironment` throws. A cancel before the first check, a throwing `getTaskContext`, or a throwing store constructor (not in the model) does the same. `call()` then throws NullPointerException after `onTaskFinished`. | Release the store only when it exists: `if (local != null) local.close()`. `AsWrittenRaisesOnMissingStore` and `AsWrittenNullPointerWitness` exhibit the failure, and `AsWrittenReportsBeforeRaising` shows the report is made before it; `StoreReleasedIffBuilt` proves the corrected release. | not executed | TaskCall.CallAsWritten | TaskCall.Call |

=== FILE: call_properties.dfy ===
/**
 * What one `call()` guarantees: every run ends in exactly one cleanup and one
 * report, the state reflects how the try block ended, the combine consumes
 * the store its map task filled, and the store is released exactly when it
 * was built. Also the behaviour of `cancel()` and of the timing getters.
 */
module CallProperties {
  import opened Optional
  import opened JavaLong
  import opened HadoopTypes
  import opened TaskWiring
  import opened RunnableTask
  import opened TaskCall

  /** The events of one `runTask` call are its steps and its releases. */
  lemma RunKinds(job: JobInfo, info: TaskInfo, loc: bool, ts: TaskScript, cancelA: bool, cancelB: bool,
                 local: Option<StoreKind>)
    requires StoreFieldAsAsserted(info, loc, local)
    ensures var r := RunTask(job, info, loc, ts, cancelA, cancelB, local);
      forall ev :: ev in r.Events() ==> IsStepEvent(ev) || ev.CloseInput? || ev.CloseOutput?
  {
    RunTaskEventKinds(job, info, loc, ts, cancelA, cancelB, local);
  }

  /** The try block makes only `prepare`, steps and releases; never a cleanup, a report or a store release. */
  lemma AttemptKinds(job: JobInfo, info: TaskInfo, sc: Script, sched: CancelSchedule)
    ensures var a := TryBlock(job, info, sc, sched);
      forall ev :: ev in a.Events() ==> ev == Prepare || IsStepEvent(ev) || ev.CloseInput? || ev.CloseOutput?
  {
    var rc := RunCombiner(info, job);
    var a := TryBlock(job, info, sc, sched);
    if a.primary.Some? {
      RunKinds(job, info, rc, sc.primary, sched.SeenAt(PrimaryA), sched.SeenAt(PrimaryB), None);
    }
    if a.combine.Some? {
      var p := a.primary.value;
      RunKinds(job, CombineInfo(info), true, sc.combine, sched.SeenAt(CombineA), sched.SeenAt(CombineB), p.local);
    }
  }

  /** The store field after the try block is set exactly when the store was built, and then to the job's variant. */
  lemma AttemptStore(job: JobInfo, info: TaskInfo, sc: Script, sched: CancelSchedule)
    ensures var a := TryBlock(job, info, sc, sched);
      && (a.local.Some? <==> NewStore(StoreFor(job)) in a.Events())
      && (a.local.Some? ==> a.local == Some(StoreFor(job)))
  {
    var rc := RunCombiner(info, job);
    var a := TryBlock(job, info, sc, sched);
    if a.primary.Some? {
      var p := a.primary.value;
      var (pa, pb) := (sched.SeenAt(PrimaryA), sched.SeenAt(PrimaryB));
      RunTaskOutcomeByExit(job, info, rc, sc.primary, pa, pb, None);
      RunTaskEventKinds(job, info, rc, sc.primary, pa, pb, None);
      if a.combine.Some? {
        var ci := CombineInfo(info);
        var (ca, cb) := (sched.SeenAt(CombineA), sched.SeenAt(CombineB));
        RunTaskOutcomeByExit(job, ci, true, sc.combine, ca, cb, p.local);
        RunTaskStore(job, ci, true, sc.combine, ca, cb, p.local);
        RunTaskEventKinds(job, ci, true, sc.combine, ca, cb, p.local);
      }
    }
  }

  /**
   * Every call cleans the environment up once and reports once, in that
   * order, after everything the try block did; the only thing after the
   * report is the store release.
   */
  lemma CallReportsOnce(job: JobInfo, info: TaskInfo, sc: Script, sched: CancelSchedule)
    ensures var r := Call(job, info, sc, sched);
      && r.Trace()[..|r.attempt.Events()| + 4] == [StampStart] + r.attempt.Events() + [Cleanup, StampEnd, Finished(r.state, r.err)]
      && Cleanup !in r.attempt.Events()
      && (forall st, e :: Finished(st, e) !in r.attempt.Events())
      && (r.storeClosed ==> r.Trace() == [StampStart] + r.attempt.Events() + [Cleanup, StampEnd, Finished(r.state, r.err), CloseStore])
      && (!r.storeClosed ==> r.Trace() == [StampStart] + r.attempt.Events() + [Cleanup, StampEnd, Finished(r.state, r.err)])
  {
    AttemptKinds(job, info, sc, sched);
    TracePrefix(Call(job, info, sc, sched));
  }

  /** Any call's trace starts with the start stamp, the try block's events, the cleanup, the end stamp and the report. */
  lemma TracePrefix(r: CallResult)
    ensures r.Trace()[..|r.attempt.Events()| + 4] == [StampStart] + r.attempt.Events() + [Cleanup, StampEnd, Finished(r.state, r.err)]
  {
    assert r.Trace()[..|r.attempt.Events()| + 4] == [StampStart] + r.attempt.Events() + [Cleanup, StampEnd, Finished(r.state, r.err)];
  }

  /**
   * `call()` stamps the start before anything else and the end once, after
   * the cleanup and right before the report; the object's timestamps are
   * then the construction, entry and end readings.
   */
  lemma CallStampsInOrder(job: JobInfo, info: TaskInfo, sc: Script, sched: CancelSchedule)
    ensures var r := Call(job, info, sc, sched);
      var k := |r.attempt.Events()|;
      && r.Trace()[0] == StampStart && StampStart !in r.Trace()[1..]
      && r.Trace()[k + 1] == Cleanup && r.Trace()[k + 2] == StampEnd && r.Trace()[k + 3] == Finished(r.state, r.err)
      && StampEnd !in r.Trace()[..k + 2] && StampEnd !in r.Trace()[k + 3..]
      && r.times == Times(sc.clock.submit, sc.clock.start, sc.clock.end)
  {
    AttemptKinds(job, info, sc, sched);
    TraceStamps(Call(job, info, sc, sched));
  }

  /** Where the stamps sit in any call's trace whose try block made none. */
  lemma TraceStamps(r: CallResult)
    requires StampStart !in r.attempt.Events() && StampEnd !in r.attempt.Events()
    ensures var k := |r.attempt.Events()|;
      && r.Trace()[0] == StampStart && StampStart !in r.Trace()[1..]
      && r.Trace()[k + 1] == Cleanup && r.Trace()[k + 2] == StampEnd && r.Trace()[k + 3] == Finished(r.state, r.err)
      && StampEnd !in r.Trace()[..k + 2] && StampEnd !in r.Trace()[k + 3..]
  {
    var k := |r.attempt.Events()|;
    var tail := if r.storeClosed then [CloseStore] else [];
    assert r.Trace()[1..] == r.attempt.Events() + [Cleanup, StampEnd, Finished(r.state, r.err)] + tail;
    assert r.Trace()[..k + 2] == [StampStart] + r.attempt.Events() + [Cleanup];
    assert r.Trace()[k + 3..] == [Finished(r.state, r.err)] + tail;
  }

  /** The corrected call releases the store exactly when the try block built it, once, as its last act. */
  lemma StoreReleasedIffBuilt(job: JobInfo, info: TaskInfo, sc: Script, sched: CancelSchedule)
    ensures var r := Call(job, info, sc, sched);
      && (CloseStore in r.Trace() <==> NewStore(StoreFor(job)) in r.Trace())
      && (CloseStore in r.Trace() ==> r.Trace()[|r.Trace()| - 1] == CloseStore && CloseStore !in r.Trace()[..|r.Trace()| - 1])
  {
    var r := Call(job, info, sc, sched);
    AttemptKinds(job, info, sc, sched);
    AttemptStore(job, info, sc, sched);
    TraceSteps(r);
    TraceStoreLast(r);
  }

  /** In any call's trace whose try block released no store, a store release is the last event and happens once. */
  lemma TraceStoreLast(r: CallResult)
    requires CloseStore !in r.attempt.Events()
    ensures CloseStore in r.Trace() ==> r.Trace()[|r.Trace()| - 1] == CloseStore && CloseStore !in r.Trace()[..|r.Trace()| - 1]
  {
    if r.storeClosed {
      assert r.Trace()[..|r.Trace()| - 1] == [StampStart] + r.attempt.Events() + [Cleanup, StampEnd, Finished(r.state, r.err)];
    }
  }

  /** As written, the store release raises NullPointerException exactly when a combiner run did not get to build the store. */
  lemma AsWrittenRaisesOnMissingStore(job: JobInfo, info: TaskInfo, sc: Script, sched: CancelSchedule)
    ensures var r := CallAsWritten(job, info, sc, sched);
      r.outcome == NullPointerRaised <==> RunCombiner(info, job) && NewStore(StoreFor(job)) !in r.attempt.Events()
  {
    AttemptStore(job, info, sc, sched);
  }

  /** A concrete run that hits it: a MAP task with a per-mapper combiner whose environment preparation fails. */
  lemma AsWrittenNullPointerWitness()
    ensures var job := JobInfo(true, None, None, None);
      var info := TaskInfo(0, Map, 0, 0, 0, None);
      var ok := TaskScript(Returns, Returns, Returns, Returns, Returns);
      var sc := Script(Throws(Failure(1)), ok, ok, Returns, Clock(0, 0, 0));
      && CallAsWritten(job, info, sc, NoCancel).outcome == NullPointerRaised
      && Call(job, info, sc, NoCancel).outcome == Normal
  {
  }

  /** Where the source does not raise, the corrected call behaves exactly like it. */
  lemma CorrectedAgreesWithAsWritten(job: JobInfo, info: TaskInfo, sc: Script, sched: CancelSchedule)
    ensures CallAsWritten(job, info, sc, sched).outcome == Normal ==> CallAsWritten(job, info, sc, sched) == Call(job, info, sc, sched)
    ensures var w := CallAsWritten(job, info, sc, sched);
      var c := Call(job, info, sc, sched);
      && w.attempt == c.attempt
      && w.state == c.state && w.err == c.err && w.times == c.times
      && w.Trace() == c.Trace()
  {
    AttemptStore(job, info, sc, sched);
  }

  /**
   * Even on the inputs where it then raises NullPointerException, the call
   * as written reports exactly once, with the classified state and error,
   * and stamps the end just before.
   */
  lemma AsWrittenReportsBeforeRaising(job: JobInfo, info: TaskInfo, sc: Script, sched: CancelSchedule)
    ensures var w := CallAsWritten(job, info, sc, sched);
      var k := |w.attempt.Events()|;
      && Reports(w.Trace()) == 1
      && w.Trace()[k + 2] == StampEnd && w.Trace()[k + 3] == Finished(w.state, w.err)
      && (w.state == Completed <==> w.attempt.res.Returns?)
      && (w.state == Canceled <==> w.attempt.res == Throws(TaskCancelled))
      && (w.state == Failed ==> w.err == Some(w.attempt.res.exc))
      && (w.state != Failed ==> w.err == (if sc.cleanup.Throws? then Some(sc.cleanup.exc) else None))
      && (w.outcome == NullPointerRaised ==> w.Trace()[|w.Trace()| - 1] == Finished(w.state, w.err))
  {
    CorrectedAgreesWithAsWritten(job, info, sc, sched);
    CallReportsExactlyOnce(job, info, sc, sched);
    CallStampsInOrder(job, info, sc, sched);
  }

  /** A failing environment preparation fails the call with that error, runs nothing, and still cleans up and reports. */
  lemma PrepareFailure(job: JobInfo, info: TaskInfo, sc: Script, sched: CancelSchedule, e: Throwable)
    requires sc.prepare == Throws(e) && e != TaskCancelled
    ensures var r := Call(job, info, sc, sched);
      && r.state == Failed && r.err == Some(e)
      && r.Trace() == [StampStart, Prepare, Cleanup, StampEnd, Finished(Failed, Some(e))]
  {
  }

  /**
   * A cancel that arrives before the primary task's entry check, once the
   * environment is prepared, cancels the call before any task context is
   * requested; cleanup and the report still happen.
   */
  lemma CancelBeforeStart(job: JobInfo, info: TaskInfo, sc: Script)
    requires sc.prepare.Returns?
    ensures var r := Call(job, info, sc, CancelBefore(PrimaryA));
      && r.state == Canceled
      && r.err == (if sc.cleanup.Throws? then Some(sc.cleanup.exc) else None)
      && r.Trace() == [StampStart, Prepare, Cleanup, StampEnd, Finished(Canceled, r.err)]
  {
  }

  /**
   * A cancel the call reaches makes it CANCELED: the primary task's entry
   * check, its check after the task body is created, and the same two
   * checks of the combine.
   */
  lemma CancelSeenIsCanceled(job: JobInfo, info: TaskInfo, sc: Script, c: Checkpoint)
    ensures var a := Call(job, info, sc, CancelBefore(c)).attempt;
      c == PrimaryA && a.primary.Some? ==> Call(job, info, sc, CancelBefore(c)).state == Canceled
    ensures var a := Call(job, info, sc, CancelBefore(c)).attempt;
      c == PrimaryB && a.primary.Some? && CreateTask(info) in a.primary.value.steps ==>
        Call(job, info, sc, CancelBefore(c)).state == Canceled
    ensures var a := Call(job, info, sc, CancelBefore(c)).attempt;
      c == CombineA && a.combine.Some? ==> Call(job, info, sc, CancelBefore(c)).state == Canceled
    ensures var a := Call(job, info, sc, CancelBefore(c)).attempt;
      c == CombineB && a.combine.Some? && CreateTask(CombineInfo(info)) in a.combine.value.steps ==>
        Call(job, info, sc, CancelBefore(c)).state == Canceled
  {
    var sched := CancelBefore(c);
    var a := TryBlock(job, info, sc, sched);
    var rc := RunCombiner(info, job);
    if a.primary.Some? {
      RunTaskCheckpointB(job, info, rc, sc.primary, sched.SeenAt(PrimaryA), sched.SeenAt(PrimaryB), None);
      if a.combine.Some? {
        var ci := CombineInfo(info);
        RunTaskCheckpointB(job, ci, true, sc.combine, sched.SeenAt(CombineA), sched.SeenAt(CombineB), a.primary.value.local);
      }
    }
  }

  /** A run that throws anything but the cancellation exception makes the call FAILED with that throwable. */
  lemma RunFailureIsReported(job: JobInfo, info: TaskInfo, sc: Script, sched: CancelSchedule, e: Throwable)
    requires e != TaskCancelled
    ensures var r := Call(job, info, sc, sched);
      r.attempt.primary.Some? && r.attempt.primary.value.res == Throws(e) ==> r.state == Failed && r.err == Some(e)
    ensures var r := Call(job, info, sc, sched);
      r.attempt.combine.Some? && r.attempt.combine.value.res == Throws(e) ==> r.state == Failed && r.err == Some(e)
  {
  }

  /** A step event is in the call's trace exactly when the try block made it. */
  lemma TraceSteps(r: CallResult)
    ensures forall ev :: IsStepEvent(ev) ==> (ev in r.Trace() <==> ev in r.attempt.Events())
    ensures CloseStore in r.Trace() <==> CloseStore in r.attempt.Events() || r.storeClosed
  {
  }

  /** The primary task's body event comes from the primary `runTask` call. */
  lemma PrimaryBodyEvent(job: JobInfo, info: TaskInfo, sc: Script, sched: CancelSchedule)
    ensures var a := TryBlock(job, info, sc, sched);
      RunBody(info) in a.Events() <==> a.primary.Some? && RunBody(info) in a.primary.value.steps
  {
    var rc := RunCombiner(info, job);
    var a := TryBlock(job, info, sc, sched);
    if a.primary.Some? {
      RunTaskEventKinds(job, info, rc, sc.primary, sched.SeenAt(PrimaryA), sched.SeenAt(PrimaryB), None);
      if a.combine.Some? {
        var c := CombineInfo(info);
        RunTaskEventKinds(job, c, true, sc.combine, sched.SeenAt(CombineA), sched.SeenAt(CombineB), a.primary.value.local);
      }
    }
  }

  /** The combine's body event comes from the combine `runTask` call. */
  lemma CombineBodyEvent(job: JobInfo, info: TaskInfo, sc: Script, sched: CancelSchedule)
    requires info.taskType == Map
    ensures var a := TryBlock(job, info, sc, sched);
      RunBody(CombineInfo(info)) in a.Events() <==> a.combine.Some? && RunBody(CombineInfo(info)) in a.combine.value.steps
  {
    var rc := RunCombiner(info, job);
    var a := TryBlock(job, info, sc, sched);
    if a.primary.Some? {
      RunTaskEventKinds(job, info, rc, sc.primary, sched.SeenAt(PrimaryA), sched.SeenAt(PrimaryB), None);
      if a.combine.Some? {
        var c := CombineInfo(info);
        RunTaskEventKinds(job, c, true, sc.combine, sched.SeenAt(CombineA), sched.SeenAt(CombineB), a.primary.value.local);
      }
    }
  }

  /** The call completes exactly when every task body it was to run ran and returned. */
  lemma CompletedIffBodiesReturned(job: JobInfo, info: TaskInfo, sc: Script, sched: CancelSchedule)
    ensures var r := Call(job, info, sc, sched);
      r.state == Completed <==>
        && RunBody(info) in r.Trace() && sc.primary.body.Returns?
        && (RunCombiner(info, job) ==> RunBody(CombineInfo(info)) in r.Trace() && sc.combine.body.Returns?)
  {
    var r := Call(job, info, sc, sched);
    TraceSteps(r);
    PrimaryBodyEvent(job, info, sc, sched);
    if RunCombiner(info, job) {
      CombineBodyEvent(job, info, sc, sched);
    }
  }

  /** A map task's synthetic combine is started only when the combiner decision holds and after the map task's body ran and returned. */
  lemma CombineFollowsMap(job: JobInfo, info: TaskInfo, sc: Script, sched: CancelSchedule)
    requires info.taskType == Map
    ensures var r := Call(job, info, sc, sched);
      GetContext(CombineInfo(info)) in r.Trace() ==>
        && RunCombiner(info, job)
        && r.attempt.primary.Some? && r.attempt.primary.value.res.Returns?
        && RunBody(info) in r.attempt.primary.value.steps
        && r.attempt.combine.Some?
  {
    var r := Call(job, info, sc, sched);
    var rc := RunCombiner(info, job);
    var a := r.attempt;
    TraceSteps(r);
    if a.primary.Some? {
      var (pa, pb) := (sched.SeenAt(PrimaryA), sched.SeenAt(PrimaryB));
      RunTaskEventKinds(job, info, rc, sc.primary, pa, pb, None);
      if a.combine.Some? {
        var (ca, cb) := (sched.SeenAt(CombineA), sched.SeenAt(CombineB));
        RunTaskEventKinds(job, CombineInfo(info), true, sc.combine, ca, cb, a.primary.value.local);
      }
    }
  }

  /** The only input a map task's call ever opens is the local store, read by the synthetic combine. */
  lemma MapCallReadsOnlyStore(job: JobInfo, info: TaskInfo, sc: Script, sched: CancelSchedule)
    requires info.taskType == Map
    ensures var r := Call(job, info, sc, sched);
      forall x :: CreateInput(x) in r.Trace() && x != NoInput ==> x == StoreInput
  {
    var r := Call(job, info, sc, sched);
    var rc := RunCombiner(info, job);
    var a := r.attempt;
    TraceSteps(r);
    if a.primary.Some? {
      var (pa, pb) := (sched.SeenAt(PrimaryA), sched.SeenAt(PrimaryB));
      RunTaskEventKinds(job, info, rc, sc.primary, pa, pb, None);
      RunTaskWiring(job, info, rc, sc.primary, pa, pb, None);
      if a.combine.Some? {
        var ci := CombineInfo(info);
        var (ca, cb) := (sched.SeenAt(CombineA), sched.SeenAt(CombineB));
        RunTaskWiring(job, ci, true, sc.combine, ca, cb, a.primary.value.local);
        RunTaskEventKinds(job, ci, true, sc.combine, ca, cb, a.primary.value.local);
      }
    }
  }

  /** The store is read only by the combine, after the map task built it in its own run. */
  lemma StoreBuiltBeforeRead(job: JobInfo, info: TaskInfo, sc: Script, sched: CancelSchedule)
    ensures var r := Call(job, info, sc, sched);
      CreateInput(StoreInput) in r.Trace() ==>
        && r.attempt.primary.Some? && r.attempt.combine.Some?
        && NewStore(StoreFor(job)) in r.attempt.primary.value.steps
        && CreateInput(StoreInput) !in r.attempt.primary.value.Events()
        && CreateInput(StoreInput) in r.attempt.combine.value.steps
  {
    var r := Call(job, info, sc, sched);
    var rc := RunCombiner(info, job);
    var a := r.attempt;
    TraceSteps(r);
    if a.primary.Some? {
      var (pa, pb) := (sched.SeenAt(PrimaryA), sched.SeenAt(PrimaryB));
      var p := a.primary.value;
      RunTaskEventKinds(job, info, rc, sc.primary, pa, pb, None);
      RunTaskStore(job, info, rc, sc.primary, pa, pb, None);
      RunTaskOutcomeByExit(job, info, rc, sc.primary, pa, pb, None);
      if a.combine.Some? {
        var (ca, cb) := (sched.SeenAt(CombineA), sched.SeenAt(CombineB));
        RunTaskEventKinds(job, CombineInfo(info), true, sc.combine, ca, cb, p.local);
      }
    }
  }

  /** The cleanup's outcome never changes the state, and changes the error only when the try block left none. */
  lemma CleanupNeverChangesState(job: JobInfo, info: TaskInfo, sc: Script, sched: CancelSchedule, cleanup: Reply)
    ensures var r := Call(job, info, sc, sched);
      var r' := Call(job, info, sc.(cleanup := cleanup), sched);
      && r'.state == r.state
      && r'.attempt == r.attempt
      && (r.state == Failed ==> r'.err == r.err)
  {
  }

  /** A `runTask` call of a task other than MAP neither builds, reads, writes nor releases the store. */
  lemma NonMapRunNoStore(job: JobInfo, info: TaskInfo, ts: TaskScript, cancelA: bool, cancelB: bool)
    requires info.taskType != Map
    ensures var r := RunTask(job, info, false, ts, cancelA, cancelB, None);
      && (forall k :: NewStore(k) !in r.Events())
      && CloseStore !in r.Events()
      && CreateOutput(StoreOutput) !in r.Events()
      && CreateInput(StoreInput) !in r.Events()
  {
    RunTaskWiring(job, info, false, ts, cancelA, cancelB, None);
    RunTaskStore(job, info, false, ts, cancelA, cancelB, None);
    RunTaskEventKinds(job, info, false, ts, cancelA, cancelB, None);
  }

  /** Tasks other than MAP never touch the local store. */
  lemma NonMapNeverUsesStore(job: JobInfo, info: TaskInfo, sc: Script, sched: CancelSchedule)
    requires info.taskType != Map
    ensures var r := Call(job, info, sc, sched);
      && (forall k :: NewStore(k) !in r.Trace())
      && CloseStore !in r.Trace()
      && CreateOutput(StoreOutput) !in r.Trace()
      && CreateInput(StoreInput) !in r.Trace()
  {
    var r := Call(job, info, sc, sched);
    var a := r.attempt;
    TraceSteps(r);
    if a.primary.Some? {
      NonMapRunNoStore(job, info, sc.primary, sched.SeenAt(PrimaryA), sched.SeenAt(PrimaryB));
      assert a.Events() == [Prepare] + a.primary.value.Events();
    }
  }

  /** For tasks other than MAP the source's store release is never reached, so it and the corrected call agree. */
  lemma NonMapAsWrittenIsSafe(job: JobInfo, info: TaskInfo, sc: Script, sched: CancelSchedule)
    requires info.taskType != Map
    ensures CallAsWritten(job, info, sc, sched) == Call(job, info, sc, sched)
  {
    AttemptStore(job, info, sc, sched);
  }

  /** Without a combine, a cancel that arrives after the primary task's last check changes nothing. */
  lemma LateCancelIsAdvisory(job: JobInfo, info: TaskInfo, sc: Script, at: Checkpoint)
    requires !RunCombiner(info, job)
    requires at == CombineA || at == CombineB
    ensures Call(job, info, sc, CancelBefore(at)) == Call(job, info, sc, NoCancel)
  {
  }

  /** A cancel request reaches every later check: the flag is never cleared. */
  lemma CancelIsSticky(sched: CancelSchedule, c: Checkpoint, d: Checkpoint)
    requires sched.SeenAt(c) && Rank(c) <= Rank(d)
    ensures sched.SeenAt(d)
  {
  }

  /** Without a cancel request, the call is canceled only if a collaborator itself threw the cancellation exception. */
  lemma NoCancelNoCanceledState(job: JobInfo, info: TaskInfo, sc: Script)
    requires sc.prepare != Throws(TaskCancelled)
    requires forall ts :: ts in [sc.primary, sc.combine] ==>
      Throws(TaskCancelled) !in [ts.context, ts.outputHook, ts.inputHook, ts.createTask, ts.body]
    ensures Call(job, info, sc, NoCancel).state != Canceled
  {
    var rc := RunCombiner(info, job);
    var a := TryBlock(job, info, sc, NoCancel);
    if a.primary.Some? {
      RunTaskThrowsOnlyScripted(job, info, rc, sc.primary, false, false, None);
      if a.combine.Some? {
        RunTaskThrowsOnlyScripted(job, CombineInfo(info), true, sc.combine, false, false, a.primary.value.local);
      }
    }
  }

  /** Cancelling twice is cancelling once: same fields, same forwarding. */
  lemma CancelIdempotent(st: CancelState)
    ensures Cancel(Cancel(st).0) == Cancel(st)
  {
  }

  /** The request is forwarded to a task exactly when one was created, and to that task. */
  lemma CancelForwards(st: CancelState, t: TaskInfo)
    ensures Cancel(st).1 == Some(t) <==> st.task == Some(t)
    ensures Cancel(st).0 == CancelState(true, st.task)
  {
  }

  /**
   * After a call, with a clock that does not go back and readings in the
   * `long` range, the wait and execution times are the true durations,
   * non-negative, and they add up to the time from submission to the end
   * of execution.
   */
  lemma TimesAreDurations(job: JobInfo, info: TaskInfo, sc: Script, sched: CancelSchedule)
    requires 0 <= sc.clock.submit <= sc.clock.start <= sc.clock.end
    ensures var t := Call(job, info, sc, sched).times;
      && WaitTime(t) == sc.clock.start - sc.clock.submit >= 0
      && ExecutionTime(t) == sc.clock.end - sc.clock.start >= 0
      && WaitTime(t) + ExecutionTime(t) == sc.clock.end - sc.clock.submit
  {
  }

  /** Read before the call starts, the wait time is minus the submit time; read during the run, the execution time is minus the start time. */
  lemma TimesBeforeStamping(submit: Long, start: Long)
    requires 0 <= submit && 0 <= start
    ensures WaitTime(Submitted(submit)) == -submit
    ensures ExecutionTime(Started(Submitted(submit), start)) == -start
  {
  }

  /** Whatever the readings, each getter agrees with the exact difference modulo 2^64. */
  lemma TimesWrap(t: Times)
    ensures (WaitTime(t) - (t.execStartTs - t.submitTs)) % TWO_64 == 0
    ensures (ExecutionTime(t) - (t.execEndTs - t.execStartTs)) % TWO_64 == 0
  {
  }

  /** How many times a trace reports through `onTaskFinished`. */
  function Reports(s: seq<Event>): (n: nat)
    ensures n == 0 <==> forall ev :: ev in s ==> !ev.Finished?
    ensures n <= |s|
  {
    if s == [] then 0
    else (if s[0].Finished? then 1 else 0) + Reports(s[1..])
  }

  /** Reports of consecutive parts of a trace add up. */
  lemma {:induction false} ReportsAppend(a: seq<Event>, b: seq<Event>)
    ensures Reports(a + b) == Reports(a) + Reports(b)
  {
    if a == [] {
      assert a + b == b;
    } else {
      assert (a + b)[1..] == a[1..] + b;
      ReportsAppend(a[1..], b);
    }
  }

  /** Whatever happens in the try block, `call()` reports exactly once. */
  lemma CallReportsExactlyOnce(job: JobInfo, info: TaskInfo, sc: Script, sched: CancelSchedule)
    ensures Reports(Call(job, info, sc, sched).Trace()) == 1
  {
    AttemptKinds(job, info, sc, sched);
    TraceReports(Call(job, info, sc, sched));
  }

  /** A call's trace reports once more than its try block did. */
  lemma TraceReports(r: CallResult)
    requires forall ev :: ev in r.attempt.Events() ==> !ev.Finished?
    ensures Reports(r.Trace()) == 1
  {
    var tail := if r.storeClosed then [CloseStore] else [];
    var before := [StampStart] + r.attempt.Events();
    ReportsAppend(before, [Cleanup, StampEnd, Finished(r.state, r.err)]);
    ReportsAppend(before + [Cleanup, StampEnd, Finished(r.state, r.err)], tail);
    assert Reports([Finished(r.state, r.err)]) == 1;
  }
}

=== FILE: external_split.dfy ===
/**
 * The external input-split record: a task's data range inside a shared
 * external file, located by a non-negative offset and carrying the hosts
 * that hold the data. Only the offset is serialised, compared and hashed.
 */
module ExternalSplit {
  import opened JavaLong
  import opened Optional

  /**
   * A split object. `hosts` is `None` for an object made by the no-argument
   * constructor that deserialisation uses: reading restores only the offset.
   */
  datatype Split = Split(hosts: Option<seq<string>>, off: LongBits)

  /** What `equals` may be handed: null, a split, or an object of another class. */
  datatype Obj = Null | SplitObj(split: Split) | OtherClass

  datatype ReadError = EndOfStream

  datatype ReadResult = Read(split: Split, rest: seq<Byte>) | ReadFailed(error: ReadError)

  /** The no-argument constructor used before `readExternal`. */
  function Blank(): (s: Split)
    ensures s.hosts == None && s.off == 0
  {
    Split(None, 0)
  }

  /** The two-argument constructor; the source asserts a non-negative offset. */
  function NewSplit(hosts: seq<string>, off: LongBits): (s: Split)
    requires NonNegative(off)
    ensures Offset(s) == off
    ensures s.hosts == Some(hosts)
  {
    Split(Some(hosts), off)
  }

  /** `offset()`, as the long's bit pattern. */
  function Offset(s: Split): LongBits
  {
    s.off
  }

  /** A constructed split's offset has the sign bit clear, so its serialised form starts below 0x80. */
  lemma ConstructedOffsetNonNegative(hosts: seq<string>, off: LongBits)
    requires NonNegative(off)
    ensures WriteExternal(NewSplit(hosts, off))[0] < 0x80
  {
    SignInFirstByte(off);
  }

  /** `writeExternal`: the offset as one big-endian long, and nothing else. */
  function WriteExternal(s: Split): (bs: seq<Byte>)
    ensures |bs| == 8
    ensures ReadLong(bs) == Offset(s)
  {
    LongRoundTrip(s.off);
    WriteLong(s.off)
  }

  /**
   * `readExternal` into the object `s`: consumes eight bytes and replaces the
   * offset; a stream that ends earlier fails the way `readLong` does.
   */
  function ReadExternal(s: Split, input: seq<Byte>): (r: ReadResult)
    ensures |input| < 8 <==> r.ReadFailed?
    ensures r.Read? ==> r.split.hosts == s.hosts && r.rest == input[8..]
    ensures r.Read? ==> WriteLong(r.split.off) == input[..8]
  {
    if |input| < 8 then ReadFailed(EndOfStream)
    else
      BytesRoundTrip(input[..8]);
      Read(s.(off := ReadLong(input[..8])), input[8..])
  }

  /** `equals`: false for null and for other classes, otherwise offsets decide. */
  function Equals(s: Split, o: Obj): (b: bool)
    ensures o.Null? || o.OtherClass? ==> !b
    ensures o.SplitObj? ==> (b <==> Offset(s) == Offset(o.split))
  {
    match o
    case Null => false
    case OtherClass => false
    case SplitObj(that) => s.off == that.off
  }

  /** `hashCode`: `(int)(off ^ (off >>> 32))`. */
  function HashCode(s: Split): JavaInt
  {
    var bits := s.off;
    var folded := bits ^ (bits >> 32);
    IntCast((folded & 0xFFFF_FFFF) as int)
  }

  /** Serialising a split and reading it into a blank object restores its offset, and the copy is equal to it. */
  lemma RoundTrip(s: Split, rest: seq<Byte>)
    ensures ReadExternal(Blank(), WriteExternal(s) + rest) == Read(Split(None, s.off), rest)
    ensures Equals(s, SplitObj(Split(None, s.off)))
    ensures Equals(Split(None, s.off), SplitObj(s))
  {
    var bs := WriteExternal(s) + rest;
    assert bs[..8] == WriteExternal(s);
    assert bs[8..] == rest;
    LongRoundTrip(s.off);
  }

  /** The hosts are not part of the serialised form: splits with the same offset serialise alike. */
  lemma HostsNotWritten(a: Split, b: Split)
    ensures WriteExternal(a) == WriteExternal(b) <==> Offset(a) == Offset(b)
  {
    if WriteExternal(a) == WriteExternal(b) {
      LongRoundTrip(a.off);
      LongRoundTrip(b.off);
    }
  }

  /** `equals` is reflexive, symmetric and transitive on splits. */
  lemma EqualsIsEquivalence(a: Split, b: Split, c: Split)
    ensures Equals(a, SplitObj(a))
    ensures Equals(a, SplitObj(b)) == Equals(b, SplitObj(a))
    ensures Equals(a, SplitObj(b)) && Equals(b, SplitObj(c)) ==> Equals(a, SplitObj(c))
  {
  }

  /** Equal splits have equal hash codes. */
  lemma HashConsistentWithEquals(a: Split, b: Split)
    requires Equals(a, SplitObj(b))
    ensures HashCode(a) == HashCode(b)
  {
  }

  /** For an offset below 2^32 the high word is zero, so the hash is the offset cast to `int`. */
  lemma SmallOffsetHash(s: Split)
    requires s.off < 0x1_0000_0000
    ensures HashCode(s) == IntCast(s.off as int)
  {
    FoldOfSmall(s.off);
  }

  /** With the high word zero, xor-folding and masking leave a pattern unchanged. */
  lemma FoldOfSmall(bits: LongBits)
    requires bits < 0x1_0000_0000
    ensures (bits ^ (bits >> 32)) & 0xFFFF_FFFF == bits
  {
  }
}

=== FILE: hadoop_types.dfy ===
/**
 * The vocabulary shared by the task executor: task types and descriptors,
 * the job settings the executor consults, throwables, the scripted replies
 * of opaque collaborators, and the final task state.
 */
module HadoopTypes {
  import opened Optional

  datatype TaskType = Setup | Map | Combine | Reduce | Commit | Abort

  /**
   * A task descriptor. Node and job identities and the type-specific payload
   * are opaque here, so they are plain numbers.
   */
  datatype TaskInfo = TaskInfo(
    nodeId: nat,
    taskType: TaskType,
    jobId: nat,
    taskNumber: int,
    attempt: int,
    payload: Option<nat>)

  /**
   * What the executor reads from the job: whether it declares a combiner,
   * and three configuration properties, each `None` when unset so that the
   * caller's default applies.
   */
  datatype JobInfo = JobInfo(
    hasCombiner: bool,
    singleCombinerForAllMappers: Option<bool>,
    shuffleCombinerNoSorting: Option<bool>,
    combinerHashmapSize: Option<int>)

  /**
   * A Java throwable as far as the executor tells them apart: the task
   * cancellation exception, or anything else, identified by an opaque cause.
   */
  datatype Throwable = TaskCancelled | Failure(cause: nat)

  /** How a call into an opaque collaborator ends. */
  datatype Reply = Returns | Throws(exc: Throwable)

  /** The state reported when a task finishes. */
  datatype TaskState = Completed | Canceled | Failed
}

=== FILE: java_long.dfy ===
/**
 * Java's 64-bit `long` and 32-bit `int` on top of Dafny's integers and
 * bit-vectors: two's complement wrap-around of `long` subtraction, the
 * narrowing `(int)` cast, and the eight-byte big-endian layout that
 * `java.io.DataOutput.writeLong` and `java.io.DataInput.readLong` use.
 */
module JavaLong {

  const TWO_32: int := 0x1_0000_0000
  const TWO_63: int := 0x8000_0000_0000_0000
  const TWO_64: int := 0x1_0000_0000_0000_0000

  /** The values of a Java `long`. */
  type Long = x: int | -TWO_63 <= x < TWO_63

  /** The values of a Java `int`. */
  type JavaInt = x: int | -0x8000_0000 <= x < 0x8000_0000

  /** The 64-bit two's complement pattern that holds a `long`. */
  type LongBits = bv64

  /** One byte of a serialised stream. */
  type Byte = bv8

  /** The sign bit is clear: the `long` the pattern holds is `>= 0`. */
  predicate NonNegative(b: LongBits)
  {
    b < 0x8000_0000_0000_0000
  }

  /** Java's `long` subtraction: the exact difference reduced modulo 2^64. */
  function LongSub(a: Long, b: Long): (r: Long)
    ensures (r - (a - b)) % TWO_64 == 0
    ensures -TWO_63 <= a - b < TWO_63 ==> r == a - b
  {
    var u := (a - b) % TWO_64;
    if u < TWO_63 then u else u - TWO_64
  }

  /** Java's narrowing `(int)` cast: keep the low 32 bits, read them as signed. */
  function IntCast(v: int): (r: JavaInt)
    ensures (r - v) % TWO_32 == 0
    ensures 0 <= v < 0x8000_0000 ==> r == v
  {
    var low := v % TWO_32;
    if low < 0x8000_0000 then low else low - TWO_32
  }

  /** `DataOutput.writeLong`: the eight bytes `(byte)(v >> 56)`, ..., `(byte)v`. */
  function WriteLong(v: LongBits): (bs: seq<Byte>)
    ensures |bs| == 8
  {
    [ ((v >> 56) & 0xFF) as Byte, ((v >> 48) & 0xFF) as Byte,
      ((v >> 40) & 0xFF) as Byte, ((v >> 32) & 0xFF) as Byte,
      ((v >> 24) & 0xFF) as Byte, ((v >> 16) & 0xFF) as Byte,
      ((v >> 8) & 0xFF) as Byte, (v & 0xFF) as Byte ]
  }

  /** `DataInput.readLong` on eight bytes: the first byte is the most significant. */
  function ReadLong(bs: seq<Byte>): LongBits
    requires |bs| == 8
  {
    ((bs[0] as LongBits) << 56) | ((bs[1] as LongBits) << 48)
    | ((bs[2] as LongBits) << 40) | ((bs[3] as LongBits) << 32)
    | ((bs[4] as LongBits) << 24) | ((bs[5] as LongBits) << 16)
    | ((bs[6] as LongBits) << 8) | (bs[7] as LongBits)
  }

  /** Every long survives `writeLong` followed by `readLong`. */
  lemma LongRoundTrip(v: LongBits)
    ensures ReadLong(WriteLong(v)) == v
  {
  }

  /** Every eight bytes survive `readLong` followed by `writeLong`. */
  lemma BytesRoundTrip(bs: seq<Byte>)
    requires |bs| == 8
    ensures WriteLong(ReadLong(bs)) == bs
  {
  }

  /** The first byte written carries the sign: it is below 0x80 exactly for non-negative values. */
  lemma SignInFirstByte(v: LongBits)
    ensures WriteLong(v)[0] < 0x80 <==> NonNegative(v)
  {
  }
}

=== FILE: optional.dfy ===
/** An optional value, standing in for a Java reference that may be null. */
module Optional {

  datatype Option<+T> = None | Some(value: T) {

    /** The value, or `default` when there is none. */
    function GetOr(default: T): (r: T)
      ensures Some? ==> r == value
      ensures None? ==> r == default
    {
      match this
      case Some(v) => v
      case None => default
    }
  }
}

=== FILE: runnable_task.dfy ===
/**
 * The runnable task: one call runs a task descriptor through environment
 * preparation, the task itself, an optional local combine, environment
 * cleanup and the "finished" report, and classifies the outcome.
 *
 * Collaborators whose code is not part of this model (the job's hooks, the
 * executor's channel factories, the task body) are replaced by a script that
 * says, per call, whether it returns or throws. A cancel request is an
 * interleaving choice: `cancel()` runs before one of the four checkpoints
 * (checkpoint A on entry to `runTask`, checkpoint B after the task body is
 * created, for the primary task and for the synthetic combine), and the flag
 * it sets is seen by that checkpoint and every later one.
 *
 * The run is observed as a trace of events. `Prepare`, `GetContext`,
 * `RunBody` and `Cleanup` record that the call was made (it may then throw);
 * `NewStore`, `CreateOutput`, `CreateInput` and `CreateTask` record that the
 * object was obtained; `Close*` record a release.
 */
module RunnableTask {
  import opened Optional
  import opened HadoopTypes
  import opened TaskWiring

  datatype Event =
    | Prepare
    | GetContext(info: TaskInfo)
    | NewStore(kind: StoreKind)
    | CreateOutput(out: Output)
    | CreateInput(inp: Input)
    | CreateTask(info: TaskInfo)
    | RunBody(info: TaskInfo)
    | CloseInput(inp: Input)
    | CloseOutput(out: Output)
    | StampStart
    | Cleanup
    | StampEnd
    | Finished(state: TaskState, err: Option<Throwable>)
    | CloseStore

  /** Events a `runTask` call makes before its try-with-resources releases. */
  predicate IsStepEvent(ev: Event)
  {
    ev.GetContext? || ev.NewStore? || ev.CreateOutput? || ev.CreateInput? || ev.CreateTask? || ev.RunBody?
  }

  /** The points where `runTask` reads the cancel flag, in program order. */
  datatype Checkpoint = PrimaryA | PrimaryB | CombineA | CombineB

  function Rank(c: Checkpoint): nat
  {
    match c
    case PrimaryA => 0
    case PrimaryB => 1
    case CombineA => 2
    case CombineB => 3
  }

  /** Whether, and before which checkpoint, `cancel()` is invoked. */
  datatype CancelSchedule = NoCancel | CancelBefore(at: Checkpoint) {

    /** The flag as read at checkpoint c. */
    predicate SeenAt(c: Checkpoint)
    {
      CancelBefore? && Rank(at) <= Rank(c)
    }
  }

  /** Scripted replies of the collaborators one `runTask` call uses. */
  datatype TaskScript = TaskScript(
    context: Reply,     // job.getTaskContext(info)
    outputHook: Reply,  // the executor's createOutput(ctx)
    inputHook: Reply,   // the executor's createInput(ctx)
    createTask: Reply,  // job.createTask(info)
    body: Reply)        // task.run(ctx, log)

  /**
   * One `runTask` call: the steps it made, the releases its
   * try-with-resources performed on the way out, the `local` store field
   * afterwards, and how it ended.
   */
  datatype TaskRun = TaskRun(steps: seq<Event>, closes: seq<Event>, local: Option<StoreKind>, res: Reply) {
    function Events(): seq<Event>
    {
      steps + closes
    }
  }

  /** The try-with-resources releases: input first, then output; null channels are skipped. */
  function Closes(inp: Input, out: Output): seq<Event>
  {
    (if inp != NoInput then [CloseInput(inp)] else [])
    + (if out != NoOutput then [CloseOutput(out)] else [])
  }

  /** Only obtained channels are released, each once, the input first. */
  lemma ClosesReleases(inp: Input, out: Output)
    ensures var cs := Closes(inp, out);
      && (CloseInput(inp) in cs <==> inp != NoInput)
      && (CloseOutput(out) in cs <==> out != NoOutput)
      && (forall ev :: ev in cs ==> ev == CloseInput(inp) || ev == CloseOutput(out))
      && |cs| <= 2
      && (|cs| == 2 ==> cs == [CloseInput(inp), CloseOutput(out)])
  {
  }

  /**
   * The events of wiring a task's output: the task context is requested,
   * the store is built when this is the map side of a local combine, and
   * the output channel is obtained.
   */
  function OutputWired(job: JobInfo, info: TaskInfo, loc: bool): seq<Event>
  {
    var out := OutputFor(info.taskType, loc);
    [GetContext(info)] + (if out == StoreOutput then [NewStore(StoreFor(job))] else []) + [CreateOutput(out)]
  }

  /** The two shapes of the output wiring, with and without the store. */
  lemma OutputWiredShape(job: JobInfo, info: TaskInfo, loc: bool)
    ensures OutputFor(info.taskType, loc) == StoreOutput ==>
      OutputWired(job, info, loc) == [GetContext(info), NewStore(StoreFor(job)), CreateOutput(StoreOutput)]
    ensures OutputFor(info.taskType, loc) != StoreOutput ==>
      OutputWired(job, info, loc) == [GetContext(info), CreateOutput(OutputFor(info.taskType, loc))]
  {
  }

  /** The events of wiring output and then input. */
  function Wired(job: JobInfo, info: TaskInfo, loc: bool): seq<Event>
  {
    OutputWired(job, info, loc) + [CreateInput(InputFor(info.taskType, loc))]
  }

  /**
   * The source's assertions on the store field when `runTask` starts: a map
   * task with a local combiner finds it null, the combine that follows
   * finds it set.
   */
  predicate StoreFieldAsAsserted(info: TaskInfo, loc: bool, local: Option<StoreKind>)
  {
    && (info.taskType == Map && loc ==> local.None?)
    && (info.taskType == Combine && loc ==> local.Some?)
  }

  /**
   * `runTask(info, locCombiner)`. `cancelA` and `cancelB` are the flag as
   * read at its two checkpoints, `local` the executor's store field on
   * entry; the precondition is the source's assertions on that field.
   */
  function RunTask(job: JobInfo, info: TaskInfo, loc: bool, ts: TaskScript, cancelA: bool, cancelB: bool,
                   local: Option<StoreKind>): (r: TaskRun)
    requires StoreFieldAsAsserted(info, loc, local)
    ensures cancelA ==> r == TaskRun([], [], local, Throws(TaskCancelled))
    ensures r.res.Returns? <==> RunBody(info) in r.steps && ts.body.Returns?
    ensures r.local == local || (local.None? && r.local == Some(StoreFor(job)))
    ensures r.res.Returns? && info.taskType == Map && loc ==> r.local.Some?
  {
    if cancelA then
      TaskRun([], [], local, Throws(TaskCancelled))
    else if ts.context.Throws? then
      TaskRun([GetContext(info)], [], local, ts.context)
    else
      var (out, local') := WireOutput(job, info.taskType, loc, local);
      if out == HookOutput && ts.outputHook.Throws? then
        TaskRun([GetContext(info)], [], local, ts.outputHook)
      else
        var inp := WireInput(info.taskType, loc, local');
        if inp == HookInput && ts.inputHook.Throws? then
          TaskRun(OutputWired(job, info, loc), Closes(NoInput, out), local', ts.inputHook)
        else
          var wired := Wired(job, info, loc);
          if ts.createTask.Throws? then
            TaskRun(wired, Closes(inp, out), local', ts.createTask)
          else if cancelB then
            TaskRun(wired + [CreateTask(info)], Closes(inp, out), local', Throws(TaskCancelled))
          else
            TaskRun(wired + [CreateTask(info), RunBody(info)], Closes(inp, out), local', ts.body)
  }

  /** The statement at which a `runTask` call leaves its body. */
  datatype Exit =
    | CanceledOnEntry      // checkpoint A
    | ContextFailed        // getTaskContext threw
    | OutputHookFailed     // the executor's createOutput threw
    | InputHookFailed      // the executor's createInput threw
    | CreateTaskFailed     // job.createTask threw
    | CanceledAfterCreate  // checkpoint B
    | BodyRan              // task.run was invoked

  /** Which exit a call takes, by the source's statement order. */
  function ExitOf(info: TaskInfo, loc: bool, ts: TaskScript, cancelA: bool, cancelB: bool): Exit
  {
    if cancelA then CanceledOnEntry
    else if ts.context.Throws? then ContextFailed
    else if OutputFor(info.taskType, loc) == HookOutput && ts.outputHook.Throws? then OutputHookFailed
    else if InputFor(info.taskType, loc) == HookInput && ts.inputHook.Throws? then InputHookFailed
    else if ts.createTask.Throws? then CreateTaskFailed
    else if cancelB then CanceledAfterCreate
    else BodyRan
  }

  /** The steps made before leaving at exit e. */
  function StepsTo(job: JobInfo, info: TaskInfo, loc: bool, e: Exit): seq<Event>
  {
    match e
    case CanceledOnEntry => []
    case ContextFailed | OutputHookFailed => [GetContext(info)]
    case InputHookFailed => OutputWired(job, info, loc)
    case CreateTaskFailed => Wired(job, info, loc)
    case CanceledAfterCreate => Wired(job, info, loc) + [CreateTask(info)]
    case BodyRan => Wired(job, info, loc) + [CreateTask(info), RunBody(info)]
  }

  /** The releases performed when leaving at exit e: the channels obtained by then. */
  function ClosesAt(info: TaskInfo, loc: bool, e: Exit): seq<Event>
  {
    match e
    case CanceledOnEntry | ContextFailed | OutputHookFailed => []
    case InputHookFailed => Closes(NoInput, OutputFor(info.taskType, loc))
    case _ => Closes(InputFor(info.taskType, loc), OutputFor(info.taskType, loc))
  }

  /** The steps and releases of `runTask` are exactly those of the exit it takes. */
  lemma RunTaskByExit(job: JobInfo, info: TaskInfo, loc: bool, ts: TaskScript, cancelA: bool, cancelB: bool,
                  local: Option<StoreKind>)
    requires StoreFieldAsAsserted(info, loc, local)
    ensures var r := RunTask(job, info, loc, ts, cancelA, cancelB, local);
      var e := ExitOf(info, loc, ts, cancelA, cancelB);
      r.steps == StepsTo(job, info, loc, e) && r.closes == ClosesAt(info, loc, e)
  {
    RunTaskStepsByExit(job, info, loc, ts, cancelA, cancelB, local);
    RunTaskClosesByExit(job, info, loc, ts, cancelA, cancelB, local);
  }

  lemma RunTaskStepsByExit(job: JobInfo, info: TaskInfo, loc: bool, ts: TaskScript, cancelA: bool, cancelB: bool,
                  local: Option<StoreKind>)
    requires StoreFieldAsAsserted(info, loc, local)
    ensures var r := RunTask(job, info, loc, ts, cancelA, cancelB, local);
      r.steps == StepsTo(job, info, loc, ExitOf(info, loc, ts, cancelA, cancelB))
  {
  }

  lemma RunTaskClosesByExit(job: JobInfo, info: TaskInfo, loc: bool, ts: TaskScript, cancelA: bool, cancelB: bool,
                  local: Option<StoreKind>)
    requires StoreFieldAsAsserted(info, loc, local)
    ensures var r := RunTask(job, info, loc, ts, cancelA, cancelB, local);
      r.closes == ClosesAt(info, loc, ExitOf(info, loc, ts, cancelA, cancelB))
  {
  }

  /** How a call that leaves at exit e ends: the cancellation exception at a checkpoint, otherwise the reply of the collaborator that stopped it. */
  function ReplyAt(ts: TaskScript, e: Exit): Reply
  {
    match e
    case CanceledOnEntry | CanceledAfterCreate => Throws(TaskCancelled)
    case ContextFailed => ts.context
    case OutputHookFailed => ts.outputHook
    case InputHookFailed => ts.inputHook
    case CreateTaskFailed => ts.createTask
    case BodyRan => ts.body
  }

  /** The outcome of `runTask` is the reply at the exit it takes. */
  lemma RunTaskReplyByExit(job: JobInfo, info: TaskInfo, loc: bool, ts: TaskScript, cancelA: bool, cancelB: bool,
                  local: Option<StoreKind>)
    requires StoreFieldAsAsserted(info, loc, local)
    ensures var r := RunTask(job, info, loc, ts, cancelA, cancelB, local);
      r.res == ReplyAt(ts, ExitOf(info, loc, ts, cancelA, cancelB))
  {
  }

  /** The store field changes exactly when the store was built, and then holds the job's variant. */
  lemma RunTaskLocalByExit(job: JobInfo, info: TaskInfo, loc: bool, ts: TaskScript, cancelA: bool, cancelB: bool,
                  local: Option<StoreKind>)
    requires StoreFieldAsAsserted(info, loc, local)
    ensures var r := RunTask(job, info, loc, ts, cancelA, cancelB, local);
      && (r.local != local <==> NewStore(StoreFor(job)) in r.steps)
      && (r.local != local ==> r.local == Some(StoreFor(job)))
  {
    var e := ExitOf(info, loc, ts, cancelA, cancelB);
    RunTaskStepsByExit(job, info, loc, ts, cancelA, cancelB, local);
    StepsToStore(job, info, loc, e);
  }

  /** The store is built exactly on the exits past output wiring of the map side of a local combine. */
  lemma StepsToStore(job: JobInfo, info: TaskInfo, loc: bool, e: Exit)
    ensures NewStore(StoreFor(job)) in StepsTo(job, info, loc, e) <==>
      e !in {CanceledOnEntry, ContextFailed, OutputHookFailed} && OutputFor(info.taskType, loc) == StoreOutput
  {
    OutputWiredShape(job, info, loc);
  }

  /** The outcome of `runTask` by exit, and the store field changes exactly when the store was built. */
  lemma RunTaskOutcomeByExit(job: JobInfo, info: TaskInfo, loc: bool, ts: TaskScript, cancelA: bool, cancelB: bool,
                  local: Option<StoreKind>)
    requires StoreFieldAsAsserted(info, loc, local)
    ensures var r := RunTask(job, info, loc, ts, cancelA, cancelB, local);
      && (r.local != local <==> NewStore(StoreFor(job)) in r.steps)
      && (r.local != local ==> r.local == Some(StoreFor(job)))
      && r.res == ReplyAt(ts, ExitOf(info, loc, ts, cancelA, cancelB))
  {
    RunTaskReplyByExit(job, info, loc, ts, cancelA, cancelB, local);
    RunTaskLocalByExit(job, info, loc, ts, cancelA, cancelB, local);
  }

  /** Trace facts per exit; the `RunTask` lemmas below transfer them to the call. */
  lemma StepsToKinds(job: JobInfo, info: TaskInfo, loc: bool, e: Exit)
    ensures forall ev :: ev in StepsTo(job, info, loc, e) ==> IsStepEvent(ev)
    ensures forall ev :: ev in StepsTo(job, info, loc, e) && (ev.GetContext? || ev.CreateTask? || ev.RunBody?) ==> ev.info == info
    ensures forall ev :: ev in ClosesAt(info, loc, e) ==> ev.CloseInput? || ev.CloseOutput?
  {
    OutputWiredShape(job, info, loc);
    ClosesReleases(InputFor(info.taskType, loc), OutputFor(info.taskType, loc));
    ClosesReleases(NoInput, OutputFor(info.taskType, loc));
  }

  lemma StepsToBody(job: JobInfo, info: TaskInfo, loc: bool, e: Exit)
    ensures RunBody(info) in StepsTo(job, info, loc, e) <==> e == BodyRan
    ensures CreateTask(info) in StepsTo(job, info, loc, e) <==> e == BodyRan || e == CanceledAfterCreate
  {
    OutputWiredShape(job, info, loc);
  }

  lemma StepsToWiring(job: JobInfo, info: TaskInfo, loc: bool, e: Exit)
    ensures forall x :: CreateOutput(x) in StepsTo(job, info, loc, e) ==>
      x == OutputFor(info.taskType, loc) && OutputWired(job, info, loc) <= StepsTo(job, info, loc, e)
    ensures forall x :: CreateInput(x) in StepsTo(job, info, loc, e) ==>
      x == InputFor(info.taskType, loc) && Wired(job, info, loc) <= StepsTo(job, info, loc, e)
    ensures forall k :: NewStore(k) in StepsTo(job, info, loc, e) ==> k == StoreFor(job) && info.taskType == Map && loc
  {
    OutputWiredShape(job, info, loc);
    var w := Wired(job, info, loc);
    var ow := OutputWired(job, info, loc);
    match e
    case CanceledOnEntry | ContextFailed | OutputHookFailed =>
    case InputHookFailed =>
    case CreateTaskFailed =>
      assert ow <= w;
    case CanceledAfterCreate =>
      assert w <= w + [CreateTask(info)];
      assert ow <= w + [CreateTask(info)];
    case BodyRan =>
      assert w <= w + [CreateTask(info), RunBody(info)];
      assert ow <= w + [CreateTask(info), RunBody(info)];
  }

  lemma ClosesAtReleases(job: JobInfo, info: TaskInfo, loc: bool, e: Exit)
    ensures forall o :: CloseOutput(o) in ClosesAt(info, loc, e) <==> CreateOutput(o) in StepsTo(job, info, loc, e) && o != NoOutput
    ensures forall x :: CloseInput(x) in ClosesAt(info, loc, e) <==> CreateInput(x) in StepsTo(job, info, loc, e) && x != NoInput
    ensures |ClosesAt(info, loc, e)| <= 2
    ensures |ClosesAt(info, loc, e)| == 2 ==> ClosesAt(info, loc, e)[0].CloseInput? && ClosesAt(info, loc, e)[1].CloseOutput?
  {
    ClosesAtOutput(job, info, loc, e);
    ClosesAtInput(job, info, loc, e);
    ClosesAtShape(info, loc, e);
  }

  lemma ClosesAtOutput(job: JobInfo, info: TaskInfo, loc: bool, e: Exit)
    ensures forall o :: CloseOutput(o) in ClosesAt(info, loc, e) <==> CreateOutput(o) in StepsTo(job, info, loc, e) && o != NoOutput
  {
    OutputWiredShape(job, info, loc);
    var out := OutputFor(info.taskType, loc);
    match e
    case CanceledOnEntry | ContextFailed | OutputHookFailed =>
    case InputHookFailed =>
      ClosesReleases(NoInput, out);
    case CreateTaskFailed | CanceledAfterCreate | BodyRan =>
      ClosesReleases(InputFor(info.taskType, loc), out);
  }

  lemma ClosesAtInput(job: JobInfo, info: TaskInfo, loc: bool, e: Exit)
    ensures forall x :: CloseInput(x) in ClosesAt(info, loc, e) <==> CreateInput(x) in StepsTo(job, info, loc, e) && x != NoInput
  {
    OutputWiredShape(job, info, loc);
    var inp := InputFor(info.taskType, loc);
    match e
    case CanceledOnEntry | ContextFailed | OutputHookFailed =>
    case InputHookFailed =>
      ClosesReleases(NoInput, OutputFor(info.taskType, loc));
    case CreateTaskFailed | CanceledAfterCreate | BodyRan =>
      ClosesReleases(inp, OutputFor(info.taskType, loc));
  }

  lemma ClosesAtShape(info: TaskInfo, loc: bool, e: Exit)
    ensures |ClosesAt(info, loc, e)| <= 2
    ensures |ClosesAt(info, loc, e)| == 2 ==> ClosesAt(info, loc, e)[0].CloseInput? && ClosesAt(info, loc, e)[1].CloseOutput?
  {
    match e
    case CanceledOnEntry | ContextFailed | OutputHookFailed =>
    case InputHookFailed =>
      ClosesReleases(NoInput, OutputFor(info.taskType, loc));
    case CreateTaskFailed | CanceledAfterCreate | BodyRan =>
      ClosesReleases(InputFor(info.taskType, loc), OutputFor(info.taskType, loc));
  }

  /** The steps belong to this task and its descriptor; the releases are releases. */
  lemma RunTaskEventKinds(job: JobInfo, info: TaskInfo, loc: bool, ts: TaskScript, cancelA: bool, cancelB: bool,
                  local: Option<StoreKind>)
    requires StoreFieldAsAsserted(info, loc, local)
    ensures var r := RunTask(job, info, loc, ts, cancelA, cancelB, local);
      && (forall ev :: ev in r.steps ==> IsStepEvent(ev))
      && (forall ev :: ev in r.steps && (ev.GetContext? || ev.CreateTask? || ev.RunBody?) ==> ev.info == info)
      && (forall ev :: ev in r.closes ==> ev.CloseInput? || ev.CloseOutput?)
  {
    RunTaskByExit(job, info, loc, ts, cancelA, cancelB, local);
    StepsToKinds(job, info, loc, ExitOf(info, loc, ts, cancelA, cancelB));
  }

  /** Checkpoint B: a flag seen after the body is created means the cancellation exception and no run; a body runs only right after it was created, once. */
  lemma RunTaskCheckpointB(job: JobInfo, info: TaskInfo, loc: bool, ts: TaskScript, cancelA: bool, cancelB: bool,
                  local: Option<StoreKind>)
    requires StoreFieldAsAsserted(info, loc, local)
    ensures var r := RunTask(job, info, loc, ts, cancelA, cancelB, local);
      && (cancelB ==> RunBody(info) !in r.steps)
      && (cancelB && CreateTask(info) in r.steps ==> r.res == Throws(TaskCancelled))
      && (RunBody(info) in r.steps ==> !cancelA && !cancelB && r.steps == Wired(job, info, loc) + [CreateTask(info), RunBody(info)])
  {
    RunTaskByExit(job, info, loc, ts, cancelA, cancelB, local);
    RunTaskOutcomeByExit(job, info, loc, ts, cancelA, cancelB, local);
    StepsToBody(job, info, loc, ExitOf(info, loc, ts, cancelA, cancelB));
  }

  /** A `runTask` call throws only the cancellation exception or what a collaborator threw. */
  lemma RunTaskThrowsOnlyScripted(job: JobInfo, info: TaskInfo, loc: bool, ts: TaskScript, cancelA: bool, cancelB: bool,
                  local: Option<StoreKind>)
    requires StoreFieldAsAsserted(info, loc, local)
    ensures var r := RunTask(job, info, loc, ts, cancelA, cancelB, local);
      r.res.Throws? ==> r.res == Throws(TaskCancelled) || r.res in [ts.context, ts.outputHook, ts.inputHook, ts.createTask, ts.body]
  {
    RunTaskOutcomeByExit(job, info, loc, ts, cancelA, cancelB, local);
  }

  /** Channels come from the decision tables; the output is obtained right after the context (and the store), the input only once the output is in place. */
  lemma RunTaskWiring(job: JobInfo, info: TaskInfo, loc: bool, ts: TaskScript, cancelA: bool, cancelB: bool,
                  local: Option<StoreKind>)
    requires StoreFieldAsAsserted(info, loc, local)
    ensures var r := RunTask(job, info, loc, ts, cancelA, cancelB, local);
      && (forall x :: CreateOutput(x) in r.steps ==> x == OutputFor(info.taskType, loc) && OutputWired(job, info, loc) <= r.steps)
      && (forall x :: CreateInput(x) in r.steps ==> x == InputFor(info.taskType, loc) && Wired(job, info, loc) <= r.steps)
  {
    RunTaskByExit(job, info, loc, ts, cancelA, cancelB, local);
    StepsToWiring(job, info, loc, ExitOf(info, loc, ts, cancelA, cancelB));
  }

  /** The store is built only for the map side of a local combine, when none exists, as the variant the job asks for; it is read only if it existed before the call. */
  lemma RunTaskStore(job: JobInfo, info: TaskInfo, loc: bool, ts: TaskScript, cancelA: bool, cancelB: bool,
                  local: Option<StoreKind>)
    requires StoreFieldAsAsserted(info, loc, local)
    ensures var r := RunTask(job, info, loc, ts, cancelA, cancelB, local);
      && (forall k :: NewStore(k) in r.steps ==> k == StoreFor(job) && local.None? && info.taskType == Map && loc)
      && (CreateInput(StoreInput) in r.steps ==> local.Some?)
  {
    RunTaskByExit(job, info, loc, ts, cancelA, cancelB, local);
    RunTaskOutcomeByExit(job, info, loc, ts, cancelA, cancelB, local);
    StepsToWiring(job, info, loc, ExitOf(info, loc, ts, cancelA, cancelB));
  }

  /** Every channel obtained is released on the way out, the input before the output, each at most once; null channels are not released. */
  lemma RunTaskReleasesChannels(job: JobInfo, info: TaskInfo, loc: bool, ts: TaskScript, cancelA: bool, cancelB: bool,
                  local: Option<StoreKind>)
    requires StoreFieldAsAsserted(info, loc, local)
    ensures var r := RunTask(job, info, loc, ts, cancelA, cancelB, local);
      && (forall o :: CloseOutput(o) in r.closes <==> CreateOutput(o) in r.steps && o != NoOutput)
      && (forall x :: CloseInput(x) in r.closes <==> CreateInput(x) in r.steps && x != NoInput)
      && |r.closes| <= 2
      && (|r.closes| == 2 ==> r.closes[0].CloseInput? && r.closes[1].CloseOutput?)
  {
    RunTaskByExit(job, info, loc, ts, cancelA, cancelB, local);
    ClosesAtReleases(job, info, loc, ExitOf(info, loc, ts, cancelA, cancelB));
  }
}

=== FILE: task_call.dfy ===
/**
 * `call()` of the runnable task: prepare the environment, run the task and,
 * for a MAP task with a per-mapper combiner, the synthetic COMBINE over the
 * local store; classify the outcome; clean the environment up; report; and
 * release the local store. Also `cancel()` and the two timing getters.
 *
 * One runnable task object serves one `call()`: its `local` store field is
 * null on entry.
 */
module TaskCall {
  import opened Optional
  import opened JavaLong
  import opened HadoopTypes
  import opened TaskWiring
  import opened RunnableTask

  /**
   * The readings `System.currentTimeMillis` gives the object: when it is
   * constructed, on entry to `call()`, and after the cleanup.
   */
  datatype Clock = Clock(submit: Long, start: Long, end: Long)

  /** Scripted replies for a whole `call()`: its collaborators and the clock. */
  datatype Script = Script(prepare: Reply, primary: TaskScript, combine: TaskScript, cleanup: Reply, clock: Clock)

  /** The descriptor of the synthetic combine: the map task's identity, type COMBINE, no input split. */
  function CombineInfo(info: TaskInfo): (c: TaskInfo)
    ensures c.taskType == Combine && c.payload == None
    ensures c.nodeId == info.nodeId && c.jobId == info.jobId
    ensures c.taskNumber == info.taskNumber && c.attempt == info.attempt
  {
    TaskInfo(info.nodeId, Combine, info.jobId, info.taskNumber, info.attempt, None)
  }

  /**
   * What the try block did: the two `runTask` calls it made (if any), the
   * `local` store field afterwards, and how the block ended.
   */
  datatype Attempt = Attempt(primary: Option<TaskRun>, combine: Option<TaskRun>, local: Option<StoreKind>, res: Reply) {
    function Events(): seq<Event>
    {
      [Prepare]
      + (if primary.Some? then primary.value.Events() else [])
      + (if combine.Some? then combine.value.Events() else [])
    }
  }

  /**
   * The try block of `call()`. The combine runs only after the primary
   * task returned, and only when the combiner decision holds; it runs
   * against the store the primary task built.
   */
  function TryBlock(job: JobInfo, info: TaskInfo, sc: Script, sched: CancelSchedule): (a: Attempt)
    ensures sc.prepare.Throws? ==> a == Attempt(None, None, None, sc.prepare)
    ensures sc.prepare.Returns? <==> a.primary.Some?
    ensures a.combine.Some? <==> a.primary.Some? && a.primary.value.res.Returns? && RunCombiner(info, job)
    ensures a.res.Returns? <==> a.primary.Some? && a.primary.value.res.Returns? && (a.combine.None? || a.combine.value.res.Returns?)
    ensures a.local.Some? ==> RunCombiner(info, job)
    ensures sc.prepare.Returns? ==> a.res == (if a.combine.Some? then a.combine.value.res else a.primary.value.res)
  {
    var rc := RunCombiner(info, job);
    if sc.prepare.Throws? then
      Attempt(None, None, None, sc.prepare)
    else
      var p := RunTask(job, info, rc, sc.primary, sched.SeenAt(PrimaryA), sched.SeenAt(PrimaryB), None);
      if p.res.Throws? || !rc then
        Attempt(Some(p), None, p.local, p.res)
      else
        var c := RunTask(job, CombineInfo(info), true, sc.combine, sched.SeenAt(CombineA), sched.SeenAt(CombineB), p.local);
        Attempt(Some(p), Some(c), c.local, c.res)
  }

  /** The two catch clauses: the cancellation exception means CANCELED, anything else FAILED with that error. */
  function Classify(res: Reply): (r: (TaskState, Option<Throwable>))
    ensures r.0 == Completed <==> res.Returns?
    ensures r.0 == Canceled <==> res == Throws(TaskCancelled)
    ensures r.0 == Failed <==> res.Throws? && res.exc != TaskCancelled
    ensures r.1.Some? <==> r.0 == Failed
    ensures r.1.Some? ==> res == Throws(r.1.value)
  {
    match res
    case Returns => (Completed, None)
    case Throws(TaskCancelled) => (Canceled, None)
    case Throws(e) => (Failed, Some(e))
  }

  /** The finally block's cleanup: its exception is reported only when the try block left no error. */
  function CleanupErr(err: Option<Throwable>, cleanup: Reply): (r: Option<Throwable>)
    ensures err.Some? ==> r == err
    ensures err.None? ==> (r.Some? <==> cleanup.Throws?)
    ensures r.Some? && err.None? ==> cleanup == Throws(r.value)
  {
    if err.None? && cleanup.Throws? then Some(cleanup.exc) else err
  }

  /** How `call()` leaves: normally, or by the NullPointerException of the store release. */
  datatype Outcome = Normal | NullPointerRaised

  /** One whole `call()`, with the object's timestamps afterwards. */
  datatype CallResult = CallResult(attempt: Attempt, state: TaskState, err: Option<Throwable>, storeClosed: bool,
                                   outcome: Outcome, times: Times) {
    /**
     * Everything `call()` did, in order: `StampStart` and `StampEnd` are the
     * assignments of `execStartTs` and `execEndTs`, `Finished` is
     * `onTaskFinished(state, err)`.
     */
    function Trace(): seq<Event>
    {
      [StampStart] + attempt.Events() + [Cleanup, StampEnd, Finished(state, err)] + (if storeClosed then [CloseStore] else [])
    }
  }

  /** The timestamps of an object constructed at `clock.submit` once `call()` has stamped both ends. */
  function Stamped(clock: Clock): (t: Times)
    ensures t == Ended(Started(Submitted(clock.submit), clock.start), clock.end)
  {
    Times(clock.submit, clock.start, clock.end)
  }

  /**
   * `call()` as the source writes it: the finally block releases the store
   * whenever the combiner decision holds, so it dereferences a null field
   * when the store was never built.
   */
  function CallAsWritten(job: JobInfo, info: TaskInfo, sc: Script, sched: CancelSchedule): (r: CallResult)
    ensures r.outcome == NullPointerRaised <==> RunCombiner(info, job) && r.attempt.local.None?
    ensures r.storeClosed <==> RunCombiner(info, job) && r.attempt.local.Some?
  {
    var a := TryBlock(job, info, sc, sched);
    var (state, err) := Classify(a.res);
    var err' := CleanupErr(err, sc.cleanup);
    if RunCombiner(info, job) && a.local.None? then
      CallResult(a, state, err', false, NullPointerRaised, Stamped(sc.clock))
    else
      CallResult(a, state, err', RunCombiner(info, job), Normal, Stamped(sc.clock))
  }

  /** `call()` with the store released exactly when it exists. */
  function Call(job: JobInfo, info: TaskInfo, sc: Script, sched: CancelSchedule): (r: CallResult)
    ensures r.outcome == Normal
    ensures r.storeClosed <==> r.attempt.local.Some?
    ensures r.state == Completed <==> r.attempt.res.Returns?
    ensures r.state == Canceled <==> r.attempt.res == Throws(TaskCancelled)
    ensures r.state == Failed ==> r.err == Some(r.attempt.res.exc)
    ensures r.state != Failed ==> r.err == (if sc.cleanup.Throws? then Some(sc.cleanup.exc) else None)
    ensures r.times == Ended(Started(Submitted(sc.clock.submit), sc.clock.start), sc.clock.end)
  {
    var a := TryBlock(job, info, sc, sched);
    var (state, err) := Classify(a.res);
    CallResult(a, state, CleanupErr(err, sc.cleanup), a.local.Some?, Normal, Stamped(sc.clock))
  }

  /** The executor fields `cancel()` touches: the volatile flag and the volatile current task. */
  datatype CancelState = CancelState(cancelled: bool, task: Option<TaskInfo>)

  /** `cancel()`: set the flag, and forward the request to the current task if one was created. */
  function Cancel(st: CancelState): (r: (CancelState, Option<TaskInfo>))
    ensures r.0.cancelled
    ensures r.0.task == st.task
    ensures r.1.Some? <==> st.task.Some?
    ensures r.1.Some? ==> r.1 == st.task
  {
    (st.(cancelled := true), st.task)
  }

  /** The three timestamps; a fresh object has its submit time and zero for the other two. */
  datatype Times = Times(submitTs: Long, execStartTs: Long, execEndTs: Long)

  function Submitted(now: Long): (t: Times)
    ensures t.submitTs == now && t.execStartTs == 0 && t.execEndTs == 0
  {
    Times(now, 0, 0)
  }

  /** `call()` stamps the start on entry ... */
  function Started(t: Times, now: Long): (t': Times)
    ensures t'.submitTs == t.submitTs && t'.execEndTs == t.execEndTs && t'.execStartTs == now
  {
    t.(execStartTs := now)
  }

  /** ... and the end after the cleanup, before reporting. */
  function Ended(t: Times, now: Long): (t': Times)
    ensures t'.submitTs == t.submitTs && t'.execStartTs == t.execStartTs && t'.execEndTs == now
  {
    t.(execEndTs := now)
  }

  /** `waitTime()`: start minus submit, in `long` arithmetic. */
  function WaitTime(t: Times): Long
  {
    LongSub(t.execStartTs, t.submitTs)
  }

  /** `executionTime()`: end minus start, in `long` arithmetic. */
  function ExecutionTime(t: Times): Long
  {
    LongSub(t.execEndTs, t.execStartTs)
  }
}

=== FILE: task_wiring.dfy ===
/**
 * The executor's wiring decisions: whether a MAP task is followed by a local
 * combine, which channel a task's output and input are taken from, and which
 * local aggregation store backs a local combine.
 */
module TaskWiring {
  import opened Optional
  import opened HadoopTypes

  /** Capacity hint of the hash store when the job does not set one. */
  const DEFAULT_COMBINER_HASHMAP_SIZE: int := 8 * 1024

  /**
   * The local aggregation store: a hash multimap with a capacity hint, or a
   * skip list ordered by the task context's sort comparator.
   */
  datatype StoreKind = HashMultimap(capacity: int) | SkipList

  /**
   * Where a task writes: nowhere (a null channel), into the local store
   * (`startAdding`), or through the executor's own `createOutput(ctx)` hook.
   */
  datatype Output = NoOutput | StoreOutput | HookOutput

  /**
   * Where a task reads from: nowhere (a null channel), from the local store
   * grouped by the context's combine-group comparator, or through the
   * executor's own `createInput(ctx)` hook.
   */
  datatype Input = NoInput | StoreInput | HookInput

  /** The synthetic COMBINE is run after a MAP task only when this holds. */
  function RunCombiner(info: TaskInfo, job: JobInfo): (b: bool)
    ensures info.taskType != Map ==> !b
    ensures !job.hasCombiner ==> !b
    ensures job.singleCombinerForAllMappers == Some(true) ==> !b
    ensures info.taskType == Map && job.hasCombiner && job.singleCombinerForAllMappers != Some(true) ==> b
  {
    info.taskType == Map && job.hasCombiner && !job.singleCombinerForAllMappers.GetOr(false)
  }

  /** The output switch, including its fall-through from MAP to the hook. */
  function OutputFor(t: TaskType, locCombiner: bool): (out: Output)
    ensures out == NoOutput <==> t in {Setup, Reduce, Commit, Abort}
    ensures out == StoreOutput <==> t == Map && locCombiner
    ensures out == HookOutput <==> t == Combine || (t == Map && !locCombiner)
  {
    match t
    case Setup | Reduce | Commit | Abort => NoOutput
    case Map => if locCombiner then StoreOutput else HookOutput
    case Combine => HookOutput
  }

  /** The input switch, including its fall-through from COMBINE to the hook. */
  function InputFor(t: TaskType, locCombiner: bool): (inp: Input)
    ensures inp == NoInput <==> t in {Setup, Map, Commit, Abort}
    ensures inp == StoreInput <==> t == Combine && locCombiner
    ensures inp == HookInput <==> t == Reduce || (t == Combine && !locCombiner)
  {
    match t
    case Setup | Map | Commit | Abort => NoInput
    case Combine => if locCombiner then StoreInput else HookInput
    case Reduce => HookInput
  }

  /** The store variant built on the first local combine. */
  function StoreFor(job: JobInfo): (k: StoreKind)
    ensures k.HashMultimap? <==> job.shuffleCombinerNoSorting == Some(true)
    ensures k.HashMultimap? && job.combinerHashmapSize.None? ==> k.capacity == DEFAULT_COMBINER_HASHMAP_SIZE
    ensures k.HashMultimap? && job.combinerHashmapSize.Some? ==> k.capacity == job.combinerHashmapSize.value
  {
    if job.shuffleCombinerNoSorting.GetOr(false) then
      HashMultimap(job.combinerHashmapSize.GetOr(DEFAULT_COMBINER_HASHMAP_SIZE))
    else
      SkipList
  }

  /**
   * Output wiring against the executor's `local` store field. Building the
   * store requires that none exists yet (the source asserts it); the result
   * is the channel and the new value of the field.
   */
  function WireOutput(job: JobInfo, t: TaskType, locCombiner: bool, local: Option<StoreKind>)
    : (r: (Output, Option<StoreKind>))
    requires t == Map && locCombiner ==> local.None?
    ensures r.0 == OutputFor(t, locCombiner)
    ensures r.0 == StoreOutput ==> local.None? && r.1 == Some(StoreFor(job))
    ensures r.0 != StoreOutput ==> r.1 == local
  {
    var out := OutputFor(t, locCombiner);
    if out == StoreOutput then (out, Some(StoreFor(job))) else (out, local)
  }

  /**
   * Input wiring against the executor's `local` store field. Reading the
   * store requires that it exists (the source asserts it).
   */
  function WireInput(t: TaskType, locCombiner: bool, local: Option<StoreKind>): (inp: Input)
    requires t == Combine && locCombiner ==> local.Some?
    ensures inp == InputFor(t, locCombiner)
    ensures inp == StoreInput ==> local.Some?
  {
    InputFor(t, locCombiner)
  }
}
